=== FILE: README.md ===
# ganglios core in Dafny

ganglios turns the XML snapshots that ganglia writes into nagios checks. It has
two query modes, and this project models both as pure functions over explicit
inputs:

- **Mode (a), `parse_ganglia`.** It walks the aggregate cache files (entries of
  the cache directory whose names end in `.xml`). For each file it applies the
  300-second freshness test and parses the file. It calls the user's thunk once
  for every METRIC of interest, as (host NAME, metric NAME, VAL). It collects
  the ids of files that are stale or unparsable in a de-duplicated bad list.
  When the loop ends, it returns OK or CRITICAL. When the bad list is
  non-empty, it also writes `<b>STALE</b>:` followed by each bad id and a
  space. A thunk exception other than ExpatError ends the scan with no return
  value and no STALE line.
- **Mode (b), `get_metric_for_host`.** It resolves one host name to its
  per-host file and returns that file's value for one metric. The host name
  goes through a reverse lookup, and a leading interface label (`int`, `eth0`,
  `eth1`, `tunnel0`, `tunnel1`) is stripped. If the file is stale or does not
  parse, the call instead ends the check through `done(2)`.

Files:

- `text.dfy` (module `Text`): the `str` operations the code relies on.
  - `endswith`;
  - `replace('.xml', '')` as a single left-to-right pass;
  - `split('.')` and `'.'.join`.
- `ganglia.dfy` (module `Ganglia`):
  - the METRIC/HOST/cluster tree;
  - `_stale_time` and the strict staleness test;
  - the status codes.
- `cache_scan.dfy` (module `CacheScan`): mode (a), in these layers:
  - the calls a parsed document asks for;
  - calling the thunk until one call raises;
  - `go_bad`;
  - one loop iteration;
  - the loop;
  - the closing report.
- `cache_scan_props.dfy` (module `ScanProperties`): whole-run properties of
  mode (a) and the worked examples.
- `host_resolve.dfy` (module `HostResolve`): mode (b) and `done`.
- `host_resolve_props.dfy` (module `ResolveProperties`): properties and
  examples for mode (b).

Inputs. The directory listing, the mtimes, the clock and the XML parser's
verdict are all inputs. A cache entry carries:

- its name;
- its mtime (whole seconds);
- either `ParseError` or its parsed clusters.

Times are whole seconds throughout.

The thunk. It is a pure function from (the calls it has already received, the
current call) to a `Reaction`. This lets a thunk that keeps state be
represented. It has three reactions:

- it returns;
- it raises an ordinary exception;
- it raises `expat.ExpatError`.

An ordinary exception is printed as `thunk threw an exception: <msg>` and then
propagates out of the scan (the `Aborted` result). An ExpatError is printed in
the same way, but the handler around the parse catches it (ganglios.py lines
90-95). The file is then treated as unparsable and the scan goes on.

The reverse lookup is an `Option<string>`. `None` stands for `socket.gaierror`,
in which case the given name is used.

Notes on the code's behaviour:

- The summary line begins with `<b>STALE</b>:` (line 100).
- A thunk exception does not always end the scan: an ExpatError raised by the
  thunk only marks the file bad.
- The final "ensure CRITICAL" step (lines 98-99) never changes anything.
  Throughout the loop the status is CRITICAL exactly when the bad list is
  non-empty (`FinalEscalationIsRedundant`).

## Model

| member | source | states |
|---|---|---|
| Text.RemoveAll | src/ganglios/ganglios.py:59 | `str.replace(pat, '')` never lengthens the text and leaves text without `pat` unchanged |
| Text.RemoveFirstXml | src/ganglios/ganglios.py:59 | in `x + ".xml" + y` with no ".xml" in `x`, the replace keeps `x` intact and continues on `y` (".xml" cannot overlap the text before it) |
| Text.Split | src/ganglios/ganglios.py:122 | `split('.')` yields at least one piece and no piece holds a '.' |
| Text.JoinSplit | src/ganglios/ganglios.py:122-124 | `'.'.join(s.split('.')) == s` for every string |
| Text.SplitJoin | src/ganglios/ganglios.py:122-124 | splitting a join of dot-free pieces returns the pieces |
| Text.SplitHead | src/ganglios/ganglios.py:122-124 | `split_name[0]` is the text before the first '.', and `'.'.join(split_name[1:])` is the text after it |
| Text.Join | src/ganglios/ganglios.py:124 | `'.'.join`: the pieces with one '.' between neighbours; its partners `JoinSplit` and `SplitJoin` prove it inverse to `Split` |
| Text.FirstSegment | src/ganglios/ganglios.py:122-123 | the first label is a dot-free prefix followed by '.' or the end of the name |
| Ganglia.IsStale | src/ganglios/ganglios.py:73 | the freshness test shared with line 146: strictly more than 300 s old; `ExactlyStaleTimeIsFresh`, `OneSecondOlderIsStale` and `ResolveStaleBoundary` pin the boundary |
| CacheScan.IsCacheFile | src/ganglios/ganglios.py:70 | `xml_file.endswith('.xml')`; `CacheFilesOf` and `NonCacheFilesIgnored` show that other entries play no part |
| CacheScan.Id | src/ganglios/ganglios.py:59 | the id never exceeds the name, and a cache file `x` + ".xml" with no other ".xml" has id `x`; `IdOfDoubleExtension` and `IdOfInnerExtension` cover the other names |
| CacheScan.MetricCalls | src/ganglios/ganglios.py:84-89 | the calls of one HOST: each METRIC with a wanted NAME, in order, as (host NAME, NAME, VAL); partner `MetricCallsMultiplicity` |
| CacheScan.HostCalls | src/ganglios/ganglios.py:83-89 | the calls of one cluster, HOST by HOST; partner `HostCallsAppend` |
| CacheScan.DocumentCalls | src/ganglios/ganglios.py:81-89 | the calls of one parsed file, cluster by cluster in document order; partners `DocumentCallsAppend` and `ReturningThunkSeesEveryMatch` |
| CacheScan.ThunkLine | src/ganglios/ganglios.py:91 | the line printed for a thunk exception; `Dispatch` and `Step` prove an abort ends the output with it |
| CacheScan.MetricCallsMultiplicity | src/ganglios/ganglios.py:83-89 | each METRIC whose NAME is wanted yields exactly one call per occurrence, carrying its host NAME and VAL verbatim; any other METRIC yields none |
| CacheScan.DocumentCallsAppend | src/ganglios/ganglios.py:81-84 | calls follow document order over the top-level children |
| CacheScan.HostCallsAppend | src/ganglios/ganglios.py:83 | calls follow the order of the HOST elements |
| CacheScan.MetricCallsAppend | src/ganglios/ganglios.py:84 | calls follow the order of the METRIC elements |
| CacheScan.SingleMetricCall | src/ganglios/ganglios.py:82-89 | one wanted METRIC under one HOST gives exactly the call (host, name, VAL) |
| CacheScan.Dispatch | src/ganglios/ganglios.py:84-92 | calls are made in order until one raises; every earlier call returned, the raising one is the last made, and only its message is printed |
| CacheScan.DispatchCompletes | src/ganglios/ganglios.py:84-89 | if every call returns, all pending calls are made and nothing is printed |
| CacheScan.GoBad | src/ganglios/ganglios.py:57-61 | the id is recorded exactly once; existing entries keep their order, and nothing else is added |
| CacheScan.GoBadKeepsFirstOccurrences | src/ganglios/ganglios.py:57-61 | a sequence of `go_bad` calls gives the ids in first-occurrence order |
| CacheScan.MarkBad | src/ganglios/ganglios.py:57-61 | `go_bad` plus `status = 2` (lines 74-75, 94-95): CRITICAL with the id recorded once, calls and output untouched, consistency kept, and a no-op for an id already bad |
| CacheScan.Step | src/ganglios/ganglios.py:69-96 | non-`.xml` entries are skipped; for a parsed cache file it halts exactly when a thunk call raises an ordinary exception, with the calls up to and including that one and its printed line, and otherwise records exactly the calls made and the lines printed; if the scan goes on, the bad list gains the file's id (once) exactly when the file is stale, unparsable, or a thunk call raised ExpatError, and is otherwise unchanged; such an ExpatError never aborts; an unparsable file makes no calls; a fresh file whose calls all return changes only the calls; an abort keeps what came before and ends with the thunk line |
| CacheScan.Fold | src/ganglios/ganglios.py:68-96 | a running scan keeps "CRITICAL iff a file went bad" with no repeated ids, and every bad id names a cache file |
| CacheScan.ParseGanglia | src/ganglios/ganglios.py:41-103 | the status is OK or CRITICAL, and CRITICAL iff the bad list is non-empty; bad ids are distinct and name cache files; a non-empty list is written last as the STALE line; an abort ends with the thunk's message (the exact bad list per step is stated by `Step`, for the whole scan by `BadListOfReturningScan`; an empty list means every call was made and nothing written, by `CleanScanMadeEveryCall`) |
| CacheScan.IdList | src/ganglios/ganglios.py:101-102 | each bad id followed by a space, in bad-list order; partner `IdListAppend` |
| CacheScan.StaleLine | src/ganglios/ganglios.py:100-102 | the closing line: `<b>STALE</b>:` then the id list, empty for an empty bad list; partner `StaleLineOne` |
| ScanProperties.AbortIsFinal | src/ganglios/ganglios.py:90-92 | once the thunk aborts the scan, later entries change nothing |
| ScanProperties.AbortStopsScan | src/ganglios/ganglios.py:90-92 | an aborted scan gives the same result whatever entries follow |
| ScanProperties.FoldGrows | src/ganglios/ganglios.py:68-96 | status, bad list, calls and output only grow from one entry to the next |
| ScanProperties.DefectiveFileIsReported | src/ganglios/ganglios.py:72-102 | any stale or unparsable cache file ends up in the bad list, makes the run CRITICAL, and is named in the closing STALE line |
| ScanProperties.DefectIds | src/ganglios/ganglios.py:72-95 | the ids of the stale or unparsable cache files in enumeration order, repeats kept: the reference list for `FoldBadList` |
| ScanProperties.StepReturningBad | src/ganglios/ganglios.py:72-95 | when the file's calls all return, one iteration goes on and adds the file's id exactly when the file is stale or unparsable |
| ScanProperties.FoldBadList | src/ganglios/ganglios.py:57-96 | when every call of the run returns, given the calls before it, the loop runs to the end and its bad list is the first occurrences of the defective files' ids, in enumeration order |
| ScanProperties.BadListOfReturningScan | src/ganglios/ganglios.py:41-103 | when every call of the run returns, given the calls before it, the scan finishes and reports exactly the ids of the stale or unparsable cache files, each once, in the order first met |
| ScanProperties.DefectiveFileStaysBad | src/ganglios/ganglios.py:72-95 | while the loop runs, the id of every stale or unparsable cache file already passed stays in the bad list |
| ScanProperties.CacheFilesOf | src/ganglios/ganglios.py:70 | every entry it keeps has a name ending in ".xml" |
| ScanProperties.FoldIgnoresOtherEntries | src/ganglios/ganglios.py:68-70 | the loop over all entries equals the loop over the `.xml` entries alone |
| ScanProperties.NonCacheFilesIgnored | src/ganglios/ganglios.py:68-70 | the whole scan is the same when non-`.xml` entries are removed |
| ScanProperties.FoldClockIndependent | src/ganglios/ganglios.py:72-92 | the clock decides neither which calls are made, nor the output, nor whether the scan aborts: a stale file is still parsed |
| ScanProperties.StepClockIndependent | src/ganglios/ganglios.py:72-95 | one iteration at two clock readings, from states with the same calls and output, makes the same calls, prints the same, and aborts alike |
| ScanProperties.ClockDoesNotChangeCalls | src/ganglios/ganglios.py:72-92 | two runs at different times make the same calls and abort alike |
| ScanProperties.FinalEscalationIsRedundant | src/ganglios/ganglios.py:97-99 | the post-loop escalation never changes the status reached by the loop |
| ScanProperties.StepReturning | src/ganglios/ganglios.py:69-92 | when the file's calls all return, one iteration goes on, makes exactly the file's wanted calls (none for a skipped or unparsable entry) and prints nothing; a fresh parsed file changes nothing else |
| ScanProperties.StepNeverRaising | src/ganglios/ganglios.py:69-92 | the same for a thunk that returns on every call whatever came before |
| ScanProperties.StepWithoutBad | src/ganglios/ganglios.py:72-95 | for any thunk, an iteration that leaves the bad list empty found it empty, made every call the file asks for and printed nothing |
| ScanProperties.AllReturnedSplit | src/ganglios/ganglios.py:81-89 | when a run of calls all return, so do its first part and, after it, the rest |
| ScanProperties.FoldWithoutBad | src/ganglios/ganglios.py:68-96 | for any thunk, a loop that runs to the end with an empty bad list made every wanted call of every parsed cache file and printed nothing |
| ScanProperties.CleanScanMadeEveryCall | src/ganglios/ganglios.py:41-103 | for any thunk, a finished scan with an empty bad list is OK, made every wanted call, and wrote neither a STALE line nor a thunk message |
| ScanProperties.FoldReturning | src/ganglios/ganglios.py:68-96 | when every call of the run returns, given the calls before it, the loop runs to the end, makes every wanted call, and prints nothing; on a healthy cache it ends in the start state |
| ScanProperties.ReturningThunkSeesEveryMatch | src/ganglios/ganglios.py:81-89 | when every call of the run returns, given the calls before it, the thunk receives every wanted metric of every parsed cache file, in order; the only output is the STALE line |
| ScanProperties.HealthyCacheIsOk | src/ganglios/ganglios.py:41-103 | fresh, well-formed files and a run whose calls all return give OK, no bad ids and no output |
| ScanProperties.IdListAppend | src/ganglios/ganglios.py:101-102 | the STALE line lists the ids in bad-list order, each followed by a space |
| ScanProperties.StaleLineOne | src/ganglios/ganglios.py:100-102 | one bad id gives `<b>STALE</b>:` + id + " " |
| ScanProperties.ExactlyStaleTimeIsFresh | src/ganglios/ganglios.py:73 | a file exactly 300 s old is fresh: the test is strict |
| ScanProperties.OneSecondOlderIsStale | src/ganglios/ganglios.py:73-75 | a file 301 s old is reported stale and the run is CRITICAL |
| ScanProperties.StaleFileReported | src/ganglios/ganglios.py:72-76 | a lone stale file is reported, and its metrics are still dispatched |
| ScanProperties.StaleAndBrokenReportedOnce | src/ganglios/ganglios.py:73-95 | a stale, unparsable file is recorded once, not twice |
| ScanProperties.KnownIdBrokenAgain | src/ganglios/ganglios.py:60-61 | marking an already-bad id again changes nothing |
| ScanProperties.SharedIdReportedOnce | src/ganglios/ganglios.py:57-61 | two broken files with the same id give one bad entry |
| ScanProperties.IdOfPlainName | src/ganglios/ganglios.py:59 | a name `x` + ".xml", with no ".xml" in `x`, is reported as `x` ("cluster2.xml" as "cluster2") |
| ScanProperties.IdOfDoubleExtension | src/ganglios/ganglios.py:59 | every ".xml" is deleted, not only the trailing one: `x.xml.xml` is reported as `x` |
| ScanProperties.IdOfInnerExtension | src/ganglios/ganglios.py:59 | an inner ".xml" is deleted too: with no ".xml" in `x` or `y`, `x.xml` + `y.xml` is reported as `x` + `y` ("a.xml.b.xml" as "a.b") |
| ScanProperties.DistinctFilesSharingAnId | src/ganglios/ganglios.py:59-61 | the distinct cache files `x.xml` and `x.xml.xml` share the id `x`, so a defect in either is reported under that one id |
| ScanProperties.ThunkParseErrorMarksFileBad | src/ganglios/ganglios.py:86-95 | a thunk raising the parser's exception class gets its message printed, and the file is reported as bad without aborting |
| ScanProperties.StepFirstCallRaises | src/ganglios/ganglios.py:86-95 | when a file's first call raises, an ordinary exception halts the scan after that one call; the parser's exception class marks the file bad and the scan continues |
| ScanProperties.ThunkExceptionAbortsScan | src/ganglios/ganglios.py:86-92 | an ordinary exception raised on any call of any cache file ends the whole scan: the result is the abort with the calls made before that file plus the file's calls up to and including the raising one, the output so far plus the printed message, and no status or STALE line |
| ScanProperties.FoldHaltsAt | src/ganglios/ganglios.py:68-92 | the loop halts at the file whose dispatch aborts, with that file's calls and printed line appended, and later entries change nothing |
| ScanProperties.ThunkExceptionSuppressesReport | src/ganglios/ganglios.py:90-92 | a lone file, stale or not, whose first call raises an ordinary exception aborts the scan with just that call and its printed message, so it is never reported as stale |
| ScanProperties.FreshClusterExample | src/ganglios/ganglios.py:41-103 | one fresh file gives OK and exactly one call ("web1", "disk_pct", "42") |
| ScanProperties.StaleClusterExample | src/ganglios/ganglios.py:41-103 | a file 600 s old gives CRITICAL, bad list ["cluster2"], and output `<b>STALE</b>:` followed by "cluster2 " |
| HostResolve.SearchName | src/ganglios/ganglios.py:114-124 | the canonical name from the reverse lookup, or the given name after `gaierror`, with the interface label stripped; partners `FailedLookupStillStrips` and `LookupNameIsStripped` |
| HostResolve.GlobMatches | src/ganglios/ganglios.py:128-130 | one entry against `*.host` (a name ending in "." + host that does not start with '.', as `glob` skips hidden names) or against the exact name; partners `HiddenEntryNotFound`, `NoEntryFor` and `SuffixBeatsExactName` |
| HostResolve.StripInterface | src/ganglios/ganglios.py:121-124 | an interface label and its dot are removed from the front and nothing else; any other name is unchanged |
| HostResolve.FirstMatch | src/ganglios/ganglios.py:128-130 | picks the first entry matching the glob, or none exactly when no entry matches |
| HostResolve.SelectFile | src/ganglios/ganglios.py:128-143 | picks the first `*.host` match (dot-prefixed names excluded) and otherwise the first exact match; none exactly when neither glob matches |
| HostResolve.FirstMetric | src/ganglios/ganglios.py:154-157 | returns the VAL of the first METRIC with that NAME, or nothing exactly when there is none |
| HostResolve.Done | src/ganglios/ganglios.py:165-168 | exits with the given status after ending the written line with a newline |
| HostResolve.GetMetricForHost | src/ganglios/ganglios.py:105-161 | host-not-found iff no file matches; the only exits are CRITICAL with "STALE\n" (iff the selected file is stale) and CRITICAL with "XML parse error\n" (iff it is fresh and unparsable); a value iff the file is fresh, parsed and has a METRIC of that NAME, and then it is the first such VAL; no value iff it has none |
| ResolveProperties.FirstSegmentOfJoin | src/ganglios/ganglios.py:122-123 | the first label of `p + "." + rest` is `p` when `p` has no '.' |
| ResolveProperties.StripOneLabel | src/ganglios/ganglios.py:123-124 | `int.<rest>` (and the other labels) strips to `<rest>`, even when `<rest>` starts with a label |
| ResolveProperties.StripBareLabel | src/ganglios/ganglios.py:122-124 | a bare interface label strips to the empty name |
| ResolveProperties.KeepOtherLabel | src/ganglios/ganglios.py:123 | a name whose first label is not an interface label is searched as given |
| ResolveProperties.FailedLookupStillStrips | src/ganglios/ganglios.py:114-124 | after a failed lookup, "eth0." + rest is searched as rest (so "eth0.foo.bar.com" as "foo.bar.com") |
| ResolveProperties.LookupNameIsStripped | src/ganglios/ganglios.py:115-124 | the canonical name from the lookup is stripped, not the name asked for |
| ResolveProperties.OnlySelectedFileMatters | src/ganglios/ganglios.py:143-161 | resolution depends only on the selected file |
| ResolveProperties.OtherInitialKept | src/ganglios/ganglios.py:122-123 | a name whose first letter is not that of an interface label is searched unchanged |
| ResolveProperties.SuffixBeatsExactName | src/ganglios/ganglios.py:128-130 | a later `int.host` file wins over an earlier file named exactly `host` |
| ResolveProperties.FirstOfSeveralSuffixMatches | src/ganglios/ganglios.py:143 | of several `*.host` matches, the first in enumeration order is used |
| ResolveProperties.HiddenEntryNotFound | src/ganglios/ganglios.py:128-133 | `*` never matches ".host", so it alone is not found |
| ResolveProperties.BareLabelMatchesTrailingDot | src/ganglios/ganglios.py:122-128 | the name "int" is searched as "", whose glob `*.` matches any name ending in '.' that does not start with '.' |
| ResolveProperties.ResolveStaleBoundary | src/ganglios/ganglios.py:146-157 | a 300 s old parsed host file yields its first matching VAL (or no value); a 301 s old one exits CRITICAL with "STALE\n" |
| ResolveProperties.FirstMetricWins | src/ganglios/ganglios.py:154-157 | a repeated METRIC yields its first VAL |
| ResolveProperties.ResolveExample | src/ganglios/ganglios.py:105-161 | a fresh "web1.example.com" file with load=1.5 yields "1.5" |
| ResolveProperties.SingleExactEntry | src/ganglios/ganglios.py:128-143 | a lone entry named exactly like the searched name is selected |
| ResolveProperties.NoEntryFor | src/ganglios/ganglios.py:128-133 | an entry shorter than the searched name matches neither glob |
| ResolveProperties.NotFoundExample | src/ganglios/ganglios.py:128-133 | "nonexistent.example.com" is reported as not found |

## Left out

- `os.mkdir(_cachedir)` and its silenced failure (lines 63-66): directory handling is I/O. The listing is an input.
- Opening and closing files, and an `IOError` or `OSError` from `open` or `os.stat` (which would propagate): I/O is not modelled.
- Fractional `time.time()`: times are whole seconds, so the staleness comparison is made on integers.
- CacheScan.ParseGanglia: the clock is read once per scan (`now`), whereas line 73 calls `time.time()` again for each cache file, so after a slow thunk the code judges later files against a later clock. `FoldClockIndependent` is stated for a single reading.
- CacheScan.ParseGanglia: for a thunk that may raise, the bad list is characterised step by step (`Step`) and by membership (`FromCacheFiles`, `DefectiveFileIsReported`); the exact whole-scan list is proved for runs whose calls all return (`BadListOfReturningScan`). For any thunk, a finished scan with an empty bad list made every call and wrote nothing (`CleanScanMadeEveryCall`).
- The parser's exception class: the model follows the ElementTree the code was written for, whose `ET.parse` raises `expat.ExpatError` on a malformed file, so the handlers at lines 93 and 158 catch it. With the ElementTree of Python 2.7, a malformed file raises `xml.etree.ElementTree.ParseError` instead; neither handler catches that, and the call would end with the exception rather than a bad id or "XML parse error".
- XML structure beyond what the code reads. A missing `NAME` or `VAL` attribute would raise `KeyError`; the model assumes the attributes are present.
- Thunk exceptions that are not `Exception` subclasses (`KeyboardInterrupt`, `SystemExit`): they propagate without the message being printed.
- The exact text of an exception message is an opaque string.
- Anything the thunk itself prints.
- `socket.herror` and other lookup failures besides `socket.gaierror` (line 116) propagate out of `get_metric_for_host`. Only success and `gaierror` are modelled.
- Host names containing glob metacharacters (`*`, `?`, `[`) or '/'.
- The exact-name fallback for the search names "", "." and "..": there the glob names the hosts directory or its parent, not a file. The `*.` glob for "" is modelled (`BareLabelMatchesTrailingDot`).
- HostResolve.GetMetricForHost: the exception raised for an unknown host is modelled as `HostNotFound(host)`, not as the text "Host not found: <host>.".
- The process exit performed by `done` is the `Exit` outcome. The caller's continuation after `sys.exit` does not exist in the model.
- The module-level path constants `_cachedir` and `_hostdir`: the directories are given as entry lists.

=== FILE: cache_scan.dfy ===
/**
 Mode (a) of ganglios: `parse_ganglia` scans every aggregate XML file of the
 ganglia cache directory, calls a user thunk for every METRIC whose NAME is
 of interest, and collects the files that are stale or unparsable.

 The directory listing, each file's mtime, the clock and the XML parser are
 inputs: an entry carries its name, its mtime and the outcome of parsing it.
 The thunk is a pure function of the calls it has already received and the
 current call, so a thunk that keeps state between calls is representable.
 */
module CacheScan {
  import opened Ganglia
  import opened Text

  /** One thunk invocation: (host NAME, metric NAME, VAL). */
  datatype Call = Call(host: string, metric: string, val: string)

  /**
   What `ET.parse` makes of a cache file: a parse failure, which the
   ElementTree this code targets raises as `expat.ExpatError`, or the
   top-level children of the root.
   */
  datatype ParseOutcome = ParseError | Parsed(clusters: seq<Cluster>)

  /** One entry of `os.listdir(_cachedir)`. */
  datatype CacheEntry = CacheEntry(name: string, mtime: int, content: ParseOutcome)

  /**
   How one thunk call ends: it returns, or it raises an exception whose text is
   `msg`. An exception of the parser's own class (expat.ExpatError) is caught by
   the handler around the parse, which treats the file as unparsable; any other
   exception aborts the whole scan.
   */
  datatype Reaction = Returns | Throws(msg: string) | ThrowsParseError(msg: string)

  /** The thunk's reaction may depend on every call it has already received. */
  type Thunk = (seq<Call>, Call) -> Reaction

  const Ext: string := ".xml"

  /** Only entries whose name ends in ".xml" are examined. */
  predicate IsCacheFile(name: string) {
    EndsWith(name, Ext)
  }

  /**
   The id reported for a bad file: its name with every ".xml" deleted. For a
   cache file with no other ".xml" in its name this is the name without its
   extension.
   */
  function Id(name: string): (r: string)
    ensures |r| <= |name|
    ensures IsCacheFile(name) && !Contains(name[..|name| - |Ext|], Ext) ==> r + Ext == name
  {
    assert IsCacheFile(name) && !Contains(name[..|name| - |Ext|], Ext) ==> RemoveAll(name, Ext) + Ext == name by {
      if IsCacheFile(name) && !Contains(name[..|name| - |Ext|], Ext) {
        var x := name[..|name| - |Ext|];
        assert name == x + Ext + "";
        RemoveFirstXml(x, "");
      }
    }
    RemoveAll(name, Ext)
  }

  // ---------------------------------------------------------------------------
  // The calls a parsed file asks for, in document order

  function MetricCalls(host: string, ms: seq<Metric>, wanted: set<string>): seq<Call>
  {
    if |ms| == 0 then []
    else
      (if ms[0].name in wanted then [Call(host, ms[0].name, ms[0].val)] else [])
      + MetricCalls(host, ms[1..], wanted)
  }

  function HostCalls(hosts: seq<Host>, wanted: set<string>): seq<Call>
  {
    if |hosts| == 0 then []
    else MetricCalls(hosts[0].name, hosts[0].metrics, wanted) + HostCalls(hosts[1..], wanted)
  }

  /** Every METRIC under a HOST under a top-level child whose NAME is wanted. */
  function DocumentCalls(clusters: seq<Cluster>, wanted: set<string>): seq<Call>
  {
    if |clusters| == 0 then []
    else HostCalls(clusters[0].hosts, wanted) + DocumentCalls(clusters[1..], wanted)
  }

  /**
   Each METRIC of a host yields as many calls as it occurs, provided its NAME is
   wanted; no call is invented and none is merged.
   */
  lemma {:induction false} MetricCallsMultiplicity(host: string, ms: seq<Metric>, wanted: set<string>, c: Call)
    ensures multiset(MetricCalls(host, ms, wanted))[c] ==
            if c.host == host && c.metric in wanted then multiset(ms)[Metric(c.metric, c.val)] else 0
    decreases |ms|
  {
    if |ms| > 0 {
      var m := ms[0];
      var head := if m.name in wanted then [Call(host, m.name, m.val)] else [];
      var rest := MetricCalls(host, ms[1..], wanted);
      var x := Metric(c.metric, c.val);
      assert multiset(MetricCalls(host, ms, wanted))[c] == multiset(head)[c] + multiset(rest)[c] by {
        assert MetricCalls(host, ms, wanted) == head + rest;
        assert multiset(head + rest) == multiset(head) + multiset(rest);
      }
      assert multiset(ms)[x] == multiset([m])[x] + multiset(ms[1..])[x] by {
        assert ms == [m] + ms[1..];
        assert multiset(ms) == multiset([m]) + multiset(ms[1..]);
      }
      HeadCount(host, m, wanted, c);
      MetricCallsMultiplicity(host, ms[1..], wanted, c);
    }
  }

  /** The call one METRIC contributes, counted. */
  lemma HeadCount(host: string, m: Metric, wanted: set<string>, c: Call)
    ensures multiset(if m.name in wanted then [Call(host, m.name, m.val)] else [])[c] ==
            if c.host == host && c.metric in wanted then multiset([m])[Metric(c.metric, c.val)] else 0
  {
    if m.name in wanted {
      assert multiset([Call(host, m.name, m.val)])[c] == if c == Call(host, m.name, m.val) then 1 else 0;
    }
    assert multiset([m])[Metric(c.metric, c.val)] == if m == Metric(c.metric, c.val) then 1 else 0;
  }

  /** Calls follow the order of the METRIC elements. */
  lemma {:induction false} MetricCallsAppend(host: string, a: seq<Metric>, b: seq<Metric>, wanted: set<string>)
    ensures MetricCalls(host, a + b, wanted) == MetricCalls(host, a, wanted) + MetricCalls(host, b, wanted)
    decreases |a|
  {
    if |a| > 0 {
      assert (a + b)[1..] == a[1..] + b;
      MetricCallsAppend(host, a[1..], b, wanted);
    } else {
      assert a + b == b;
    }
  }

  /** Calls follow the order of the HOST elements. */
  lemma {:induction false} HostCallsAppend(a: seq<Host>, b: seq<Host>, wanted: set<string>)
    ensures HostCalls(a + b, wanted) == HostCalls(a, wanted) + HostCalls(b, wanted)
    decreases |a|
  {
    if |a| > 0 {
      assert (a + b)[1..] == a[1..] + b;
      HostCallsAppend(a[1..], b, wanted);
    } else {
      assert a + b == b;
    }
  }

  /** Calls follow the order of the top-level children. */
  lemma {:induction false} DocumentCallsAppend(a: seq<Cluster>, b: seq<Cluster>, wanted: set<string>)
    ensures DocumentCalls(a + b, wanted) == DocumentCalls(a, wanted) + DocumentCalls(b, wanted)
    decreases |a|
  {
    if |a| > 0 {
      assert (a + b)[1..] == a[1..] + b;
      DocumentCallsAppend(a[1..], b, wanted);
    } else {
      assert a + b == b;
    }
  }

  /** A single metric under a single host yields exactly one call, verbatim, when its NAME is wanted. */
  lemma SingleMetricCall(host: string, m: Metric, wanted: set<string>)
    ensures DocumentCalls([Cluster([Host(host, [m])])], wanted) ==
            if m.name in wanted then [Call(host, m.name, m.val)] else []
  {
    var h := Host(host, [m]);
    var cs := [Cluster([h])];
    assert [m][1..] == [];
    assert MetricCalls(host, [m], wanted) == if m.name in wanted then [Call(host, m.name, m.val)] else [];
    assert [h][1..] == [];
    assert HostCalls([h], wanted) == MetricCalls(host, [m], wanted) + HostCalls([], wanted);
    assert cs[1..] == [];
    assert DocumentCalls(cs, wanted) == HostCalls([h], wanted) + DocumentCalls([], wanted);
  }

  // ---------------------------------------------------------------------------
  // Calling the thunk

  /** How the calls of one file ended. */
  datatype Ending = Completed | FileFailed(msg: string) | Abort(msg: string)

  /** The calls made for one file (including a raising one), what was printed, and how it ended. */
  datatype Dispatched = Dispatched(made: seq<Call>, output: string, ending: Ending)

  /** What `print "thunk threw an exception: %s" % e` writes. */
  function ThunkLine(msg: string): string {
    "thunk threw an exception: " + msg + "\n"
  }

  /** Every call of `made` returned, each given the calls before it. */
  predicate AllReturned(history: seq<Call>, made: seq<Call>, thunk: Thunk) {
    forall k :: 0 <= k < |made| ==> ReturnsAt(history, made, thunk, k)
  }

  /** The call `made[k]` returned, given the calls before it. */
  predicate ReturnsAt(history: seq<Call>, made: seq<Call>, thunk: Thunk, k: int)
    requires 0 <= k < |made|
  {
    thunk(history + made[..k], made[k]).Returns?
  }

  lemma AllReturnedCons(history: seq<Call>, c: Call, rest: seq<Call>, thunk: Thunk)
    requires thunk(history, c).Returns?
    ensures AllReturned(history + [c], rest, thunk) <==> AllReturned(history, [c] + rest, thunk)
  {
    var made := [c] + rest;
    forall k | 0 <= k < |rest|
      ensures ReturnsAt(history + [c], rest, thunk, k) <==> ReturnsAt(history, made, thunk, k + 1)
    {
      assert made[..k + 1] == [c] + rest[..k];
      assert (history + [c]) + rest[..k] == history + made[..k + 1];
      assert rest[k] == made[k + 1];
    }
    assert history + made[..0] == history;
    assert ReturnsAt(history, made, thunk, 0);
    if AllReturned(history + [c], rest, thunk) {
      forall k | 0 <= k < |made|
        ensures ReturnsAt(history, made, thunk, k)
      {
        if k > 0 {
          assert ReturnsAt(history + [c], rest, thunk, k - 1);
        }
      }
    }
    if AllReturned(history, made, thunk) {
      forall k | 0 <= k < |rest|
        ensures ReturnsAt(history + [c], rest, thunk, k)
      {
        assert ReturnsAt(history, made, thunk, k + 1);
      }
    }
  }

  /** The reaction that ends a dispatch early. */
  function Raising(e: Ending): Reaction
    requires !e.Completed?
  {
    if e.Abort? then Throws(e.msg) else ThrowsParseError(e.msg)
  }

  /**
   Calls the thunk on each pending call in order until one raises. The result
   is fully described by the first call that does not return: every call before
   it returned, it is the last call made, and its exception text is printed.
   */
  function Dispatch(pending: seq<Call>, history: seq<Call>, thunk: Thunk): (d: Dispatched)
    ensures d.made <= pending
    ensures d.ending.Completed? ==> d.made == pending && d.output == "" && AllReturned(history, pending, thunk)
    ensures !d.ending.Completed? ==>
              var n := |d.made| - 1;
              && n >= 0
              && AllReturned(history, d.made[..n], thunk)
              && thunk(history + d.made[..n], d.made[n]) == Raising(d.ending)
              && d.output == ThunkLine(d.ending.msg)
    decreases |pending|
  {
    if |pending| == 0 then Dispatched([], "", Completed)
    else
      var c := pending[0];
      match thunk(history, c)
      case Returns =>
        var d := Dispatch(pending[1..], history + [c], thunk);
        DispatchCons(pending, history, thunk, d);
        Dispatched([c] + d.made, d.output, d.ending)
      case Throws(msg) =>
        FirstCallRaises(pending, history, thunk, Abort(msg));
        Dispatched([c], ThunkLine(msg), Abort(msg))
      case ThrowsParseError(msg) =>
        FirstCallRaises(pending, history, thunk, FileFailed(msg));
        Dispatched([c], ThunkLine(msg), FileFailed(msg))
  }

  /**
   The dispatch of the calls after a returning first call, prefixed by that
   call, is described as a dispatch of all pending calls.
   */
  lemma DispatchCons(pending: seq<Call>, history: seq<Call>, thunk: Thunk, d: Dispatched)
    requires |pending| > 0 && thunk(history, pending[0]).Returns?
    requires d.made <= pending[1..]
    requires d.ending.Completed? ==> d.made == pending[1..] && d.output == ""
                                     && AllReturned(history + [pending[0]], pending[1..], thunk)
    requires !d.ending.Completed? ==>
               var n := |d.made| - 1;
               && n >= 0
               && AllReturned(history + [pending[0]], d.made[..n], thunk)
               && thunk((history + [pending[0]]) + d.made[..n], d.made[n]) == Raising(d.ending)
               && d.output == ThunkLine(d.ending.msg)
    ensures [pending[0]] + d.made <= pending
    ensures d.ending.Completed? ==> [pending[0]] + d.made == pending && AllReturned(history, pending, thunk)
    ensures !d.ending.Completed? ==>
              var all := [pending[0]] + d.made;
              var n := |all| - 1;
              && AllReturned(history, all[..n], thunk)
              && thunk(history + all[..n], all[n]) == Raising(d.ending)
  {
    var c := pending[0];
    assert pending == [c] + pending[1..];
    if d.ending.Completed? {
      AllReturnedCons(history, c, pending[1..], thunk);
    } else {
      EarlyEndCons(history, c, d.made, thunk, d.ending);
    }
  }

  /** A dispatch that ends at its first call. */
  lemma FirstCallRaises(pending: seq<Call>, history: seq<Call>, thunk: Thunk, e: Ending)
    requires |pending| > 0 && !e.Completed? && thunk(history, pending[0]) == Raising(e)
    ensures [pending[0]] <= pending
    ensures AllReturned(history, [pending[0]][..0], thunk)
    ensures thunk(history + [pending[0]][..0], [pending[0]][0]) == Raising(e)
  {
    assert pending[..1] == [pending[0]];
    assert [pending[0]][..0] == [];
    assert history + [] == history;
  }

  /** The early end of a dispatch, seen after one more returning call in front of it. */
  predicate ConsStep(history: seq<Call>, c: Call, made: seq<Call>, thunk: Thunk, e: Ending)
    requires !e.Completed?
  {
    var all := [c] + made;
    var n := |all| - 1;
    && AllReturned(history, all[..n], thunk)
    && thunk(history + all[..n], all[n]) == Raising(e)
  }

  lemma EarlyEndCons(history: seq<Call>, c: Call, made: seq<Call>, thunk: Thunk, e: Ending)
    requires !e.Completed? && thunk(history, c).Returns? && |made| > 0
    requires AllReturned(history + [c], made[..|made| - 1], thunk)
    requires thunk((history + [c]) + made[..|made| - 1], made[|made| - 1]) == Raising(e)
    ensures ConsStep(history, c, made, thunk, e)
  {
    var all := [c] + made;
    var n := |made| - 1;
    assert all[..n + 1] == [c] + made[..n];
    AllReturnedCons(history, c, made[..n], thunk);
    assert (history + [c]) + made[..n] == history + all[..n + 1];
    assert all[n + 1] == made[n];
  }

  /** When every pending call returns, the dispatch completes. */
  lemma {:induction false} DispatchCompletes(pending: seq<Call>, history: seq<Call>, thunk: Thunk)
    requires AllReturned(history, pending, thunk)
    ensures Dispatch(pending, history, thunk) == Dispatched(pending, "", Completed)
    decreases |pending|
  {
    if |pending| > 0 {
      var c := pending[0];
      assert ReturnsAt(history, pending, thunk, 0);
      assert pending[..0] == [] && history + pending[..0] == history;
      assert pending == [c] + pending[1..];
      AllReturnedCons(history, c, pending[1..], thunk);
      DispatchCompletes(pending[1..], history + [c], thunk);
    }
  }

  // ---------------------------------------------------------------------------
  // The bad list

  predicate NoDups(s: seq<string>) {
    forall i, j :: 0 <= i < j < |s| ==> s[i] != s[j]
  }

  /** `go_bad`: record `id` unless it is already recorded. */
  function GoBad(bad: seq<string>, id: string): (r: seq<string>)
    ensures id in r
    ensures bad <= r
    ensures |r| <= |bad| + 1
    ensures id in bad ==> r == bad
    ensures forall x :: x in r ==> x in bad || x == id
    ensures NoDups(bad) ==> NoDups(r)
  {
    if id in bad then bad else bad + [id]
  }

  /** The elements of `xs` in the order of their first occurrence. */
  function FirstOccurrences(xs: seq<string>): seq<string>
    decreases |xs|
  {
    if |xs| == 0 then []
    else
      var init := xs[..|xs| - 1];
      var x := xs[|xs| - 1];
      FirstOccurrences(init) + (if x in init then [] else [x])
  }

  lemma {:induction false} FirstOccurrencesMembers(xs: seq<string>, y: string)
    ensures y in FirstOccurrences(xs) <==> y in xs
    decreases |xs|
  {
    if |xs| > 0 {
      var init := xs[..|xs| - 1];
      FirstOccurrencesMembers(init, y);
      assert xs == init + [xs[|xs| - 1]];
    }
  }

  /**
   Feeding `go_bad` the ids of a run one by one leaves the bad list equal to
   those ids in first-occurrence order, with no repeats.
   */
  lemma GoBadKeepsFirstOccurrences(xs: seq<string>, x: string)
    ensures GoBad(FirstOccurrences(xs), x) == FirstOccurrences(xs + [x])
  {
    FirstOccurrencesMembers(xs, x);
    assert (xs + [x])[..|xs|] == xs;
  }

  // ---------------------------------------------------------------------------
  // The scan

  /** The variables of `parse_ganglia` between two directory entries. */
  datatype ScanState = ScanState(status: int, bad: seq<string>, calls: seq<Call>, output: string)

  /** Either still scanning, or stopped by a thunk exception that propagates out of the scan. */
  datatype Progress = Running(st: ScanState) | Halted(calls: seq<Call>, output: string, message: string)

  /**
   What a call of `parse_ganglia` amounts to: the returned status, the bad list,
   the thunk calls and everything written to stdout; or, when the thunk raised an
   exception other than a parse error, the calls and output up to that point and
   the exception text that propagates to the caller.
   */
  datatype ScanResult =
    | Finished(status: int, bad: seq<string>, calls: seq<Call>, output: string)
    | Aborted(calls: seq<Call>, output: string, message: string)

  const Start: ScanState := ScanState(Ok, [], [], "")

  /** The status is OK or CRITICAL, CRITICAL exactly when a file went bad, and no id repeats. */
  predicate Consistent(st: ScanState) {
    && (st.status == Ok || st.status == Critical)
    && (st.status == Critical <==> |st.bad| > 0)
    && NoDups(st.bad)
  }

  /** Nothing recorded is ever taken back and the status is never lowered. */
  predicate Grows(a: ScanState, b: ScanState) {
    && a.status <= b.status
    && a.bad <= b.bad
    && a.calls <= b.calls
    && a.output <= b.output
  }

  /** A cache file whose defect is visible before any thunk call: stale or unparsable. */
  predicate Defective(e: CacheEntry, now: int) {
    IsCacheFile(e.name) && (IsStale(now, e.mtime) || e.content.ParseError?)
  }

  /** The thunk raised the parser's exception class on one of the calls a parsed cache file asks for. */
  predicate ThunkFailsFile(st: ScanState, e: CacheEntry, wanted: set<string>, thunk: Thunk) {
    && IsCacheFile(e.name)
    && e.content.Parsed?
    && Dispatch(DocumentCalls(e.content.clusters, wanted), st.calls, thunk).ending.FileFailed?
  }

  /** `go_bad(xml_file, bad)` followed by `status = 2`: the file's id is recorded and the scan turns CRITICAL. */
  function MarkBad(st: ScanState, id: string): (r: ScanState)
    ensures r.status == Critical && r.bad == GoBad(st.bad, id)
    ensures r.calls == st.calls && r.output == st.output
    ensures Consistent(st) ==> Consistent(r) && Grows(st, r)
    ensures id in st.bad && st.status == Critical ==> r == st
  {
    st.(status := Critical, bad := GoBad(st.bad, id))
  }

  /** One iteration of the loop over `os.listdir(_cachedir)`. */
  function Step(st: ScanState, e: CacheEntry, now: int, wanted: set<string>, thunk: Thunk): (p: Progress)
    ensures !IsCacheFile(e.name) ==> p == Running(st)
    ensures p.Running? && Consistent(st) ==> Consistent(p.st) && Grows(st, p.st)
    ensures p.Running? ==> forall x :: x in p.st.bad ==> x in st.bad || (IsCacheFile(e.name) && x == Id(e.name))
    ensures p.Running? && Defective(e, now) ==> Id(e.name) in p.st.bad
    ensures ThunkFailsFile(st, e, wanted, thunk) ==> p.Running? && Id(e.name) in p.st.bad
    ensures p.Running? ==>
              p.st.bad == if Defective(e, now) || ThunkFailsFile(st, e, wanted, thunk)
                          then GoBad(st.bad, Id(e.name)) else st.bad
    ensures IsCacheFile(e.name) && e.content.ParseError? ==>
              p.Running? && p.st.calls == st.calls && p.st.output == st.output
    ensures IsCacheFile(e.name) && e.content.Parsed?
            && AllReturned(st.calls, DocumentCalls(e.content.clusters, wanted), thunk) ==>
              && p.Running?
              && p.st.calls == st.calls + DocumentCalls(e.content.clusters, wanted)
              && p.st.output == st.output
              && (!IsStale(now, e.mtime) ==> p.st.status == st.status && p.st.bad == st.bad)
    ensures p.Halted? ==> st.calls <= p.calls && st.output <= p.output
                          && EndsWith(p.output, ThunkLine(p.message))
    ensures IsCacheFile(e.name) && e.content.Parsed? ==>
              var d := Dispatch(DocumentCalls(e.content.clusters, wanted), st.calls, thunk);
              && (p.Halted? <==> d.ending.Abort?)
              && (p.Halted? ==> p == Halted(st.calls + d.made, st.output + d.output, d.ending.msg))
              && (p.Running? ==> p.st.calls == st.calls + d.made && p.st.output == st.output + d.output)
  {
    if !IsCacheFile(e.name) then Running(st)
    else
      var id := Id(e.name);
      var st1 := if IsStale(now, e.mtime) then MarkBad(st, id) else st;
      match e.content
      case ParseError =>
        Running(MarkBad(st1, id))
      case Parsed(clusters) =>
        var pending := DocumentCalls(clusters, wanted);
        assert AllReturned(st1.calls, pending, thunk) ==> Dispatch(pending, st1.calls, thunk) == Dispatched(pending, "", Completed) by {
          if AllReturned(st1.calls, pending, thunk) {
            DispatchCompletes(pending, st1.calls, thunk);
          }
        }
        DispatchFile(st1, id, clusters, wanted, thunk)
  }

  /**
   The rest of an iteration for a cache file that parses, from the state `st`
   the freshness test left: the thunk calls, then the ExpatError handler.
   */
  function DispatchFile(st: ScanState, id: string, clusters: seq<Cluster>, wanted: set<string>, thunk: Thunk): (p: Progress)
    ensures var d := Dispatch(DocumentCalls(clusters, wanted), st.calls, thunk);
            && (p.Halted? <==> d.ending.Abort?)
            && (p.Halted? ==> p == Halted(st.calls + d.made, st.output + d.output, d.ending.msg))
            && (p.Running? ==>
                  && p.st.calls == st.calls + d.made && p.st.output == st.output + d.output
                  && p.st.bad == (if d.ending.FileFailed? then GoBad(st.bad, id) else st.bad)
                  && p.st.status == (if d.ending.FileFailed? then Critical else st.status))
    ensures p.Running? && Consistent(st) ==> Consistent(p.st) && Grows(st, p.st)
    ensures p.Halted? ==> EndsWith(p.output, ThunkLine(p.message))
  {
    var d := Dispatch(DocumentCalls(clusters, wanted), st.calls, thunk);
    var st2 := st.(calls := st.calls + d.made, output := st.output + d.output);
    match d.ending
    case Completed => Running(st2)
    case FileFailed(_) => Running(MarkBad(st2, id))
    case Abort(msg) => Halted(st2.calls, st2.output, msg)
  }

  /** The cache files seen so far, in enumeration order. */
  function Fold(entries: seq<CacheEntry>, now: int, wanted: set<string>, thunk: Thunk): (p: Progress)
    ensures p.Running? ==> Consistent(p.st) && FromCacheFiles(p.st.bad, entries)
    ensures p.Halted? ==> EndsWith(p.output, ThunkLine(p.message))
    decreases |entries|
  {
    if |entries| == 0 then Running(Start)
    else
      var init := entries[..|entries| - 1];
      var e := entries[|entries| - 1];
      match Fold(init, now, wanted, thunk)
      case Halted(calls, output, message) => Halted(calls, output, message)
      case Running(st) =>
        var p := Step(st, e, now, wanted, thunk);
        assert p.Running? ==> FromCacheFiles(p.st.bad, entries) by {
          if p.Running? {
            forall x | x in p.st.bad
              ensures exists i :: 0 <= i < |entries| && IsCacheFile(entries[i].name) && x == Id(entries[i].name)
            {
              if x in st.bad {
                var i :| 0 <= i < |init| && IsCacheFile(init[i].name) && x == Id(init[i].name);
                assert entries[i] == init[i];
              } else {
                assert entries[|entries| - 1] == e;
              }
            }
          }
        }
        p
  }

  /** Every id in `bad` names a cache file of `entries`. */
  predicate FromCacheFiles(bad: seq<string>, entries: seq<CacheEntry>) {
    forall x :: x in bad ==> exists i :: 0 <= i < |entries| && IsCacheFile(entries[i].name) && x == Id(entries[i].name)
  }

  const StaleHeader: string := "<b>STALE</b>:"

  /** Each id followed by one space, in list order. */
  function IdList(bad: seq<string>): string
  {
    if |bad| == 0 then "" else bad[0] + " " + IdList(bad[1..])
  }

  /** The diagnostic written after the loop when some file went bad. */
  function StaleLine(bad: seq<string>): string {
    StaleHeader + IdList(bad)
  }

  /**
   `parse_ganglia(metrics, thunk)` over the directory `entries` at time `now`.
   When the scan finishes, the status is OK or CRITICAL, CRITICAL exactly when
   the bad list is non-empty, the bad list has no repeats and names only cache
   files, and a non-empty bad list is reported by the STALE line at the very
   end of the output. An aborted scan ends with the thunk's exception text.
   */
  function ParseGanglia(entries: seq<CacheEntry>, now: int, wanted: set<string>, thunk: Thunk): (r: ScanResult)
    ensures r.Finished? ==>
              && (r.status == Ok || r.status == Critical)
              && (r.status == Critical <==> |r.bad| > 0)
              && NoDups(r.bad)
              && FromCacheFiles(r.bad, entries)
              && (|r.bad| > 0 ==> EndsWith(r.output, StaleLine(r.bad)))
    ensures r.Aborted? ==> EndsWith(r.output, ThunkLine(r.message))
  {
    match Fold(entries, now, wanted, thunk)
    case Halted(calls, output, message) => Aborted(calls, output, message)
    case Running(st) =>
      if |st.bad| > 0 then
        var status := if st.status == Ok then Critical else st.status;
        Finished(status, st.bad, st.calls, st.output + StaleLine(st.bad))
      else
        Finished(st.status, st.bad, st.calls, st.output)
  }
}

=== FILE: cache_scan_props.dfy ===
/**
 Properties of `parse_ganglia` that relate several calls or a whole run:
 monotonic escalation, aborts, the freshness/parseability split, the calls a
 well-behaved thunk receives, and worked examples.
 */
module ScanProperties {
  import opened Ganglia
  import opened Text
  import opened CacheScan

  lemma PrefixOfSnoc<T>(xs: seq<T>, x: T)
    ensures (xs + [x])[..|xs|] == xs
  {
  }

  lemma GrowsTransitive(a: ScanState, b: ScanState, c: ScanState)
    requires Grows(a, b) && Grows(b, c)
    ensures Grows(a, c)
  {
    assert a.bad == b.bad[..|a.bad|] == c.bad[..|a.bad|];
    assert a.calls == b.calls[..|a.calls|] == c.calls[..|a.calls|];
    assert a.output == b.output[..|a.output|] == c.output[..|a.output|];
  }

  /** Once the thunk has aborted the scan, later entries change nothing. */
  lemma {:induction false} AbortIsFinal(entries: seq<CacheEntry>, i: nat, now: int, wanted: set<string>, thunk: Thunk)
    requires i <= |entries|
    requires Fold(entries[..i], now, wanted, thunk).Halted?
    ensures Fold(entries, now, wanted, thunk) == Fold(entries[..i], now, wanted, thunk)
    decreases |entries|
  {
    if i < |entries| {
      var init := entries[..|entries| - 1];
      assert init[..i] == entries[..i];
      AbortIsFinal(init, i, now, wanted, thunk);
    } else {
      assert entries[..i] == entries;
    }
  }

  /**
   A scan that runs to the end passed through every prefix, and each later
   state extends the earlier one: the status is never lowered, and bad ids,
   calls and output are only ever appended to.
   */
  lemma {:induction false} FoldGrows(entries: seq<CacheEntry>, i: nat, now: int, wanted: set<string>, thunk: Thunk)
    requires i <= |entries|
    requires Fold(entries, now, wanted, thunk).Running?
    ensures Fold(entries[..i], now, wanted, thunk).Running?
    ensures Grows(Fold(entries[..i], now, wanted, thunk).st, Fold(entries, now, wanted, thunk).st)
    decreases |entries|
  {
    if i < |entries| {
      var init := entries[..|entries| - 1];
      assert init[..i] == entries[..i];
      var p := Fold(init, now, wanted, thunk);
      assert p.Running?;
      FoldGrows(init, i, now, wanted, thunk);
      GrowsTransitive(Fold(entries[..i], now, wanted, thunk).st, p.st, Fold(entries, now, wanted, thunk).st);
    } else {
      assert entries[..i] == entries;
    }
  }

  /**
   A cache file that is stale or does not parse puts its id in the bad list,
   makes the status CRITICAL, and is named in the closing STALE line, however
   many other files are fine.
   */
  lemma DefectiveFileIsReported(entries: seq<CacheEntry>, i: nat, now: int, wanted: set<string>, thunk: Thunk)
    requires i < |entries| && Defective(entries[i], now)
    requires ParseGanglia(entries, now, wanted, thunk).Finished?
    ensures var r := ParseGanglia(entries, now, wanted, thunk);
            && Id(entries[i].name) in r.bad
            && r.status == Critical
            && EndsWith(r.output, StaleLine(r.bad))
  {
    DefectiveFileStaysBad(entries, i, now, wanted, thunk);
  }

  /** A running loop keeps the id of every defective cache file it has passed. */
  lemma DefectiveFileStaysBad(entries: seq<CacheEntry>, i: nat, now: int, wanted: set<string>, thunk: Thunk)
    requires i < |entries| && Defective(entries[i], now)
    requires Fold(entries, now, wanted, thunk).Running?
    ensures Id(entries[i].name) in Fold(entries, now, wanted, thunk).st.bad
  {
    var id := Id(entries[i].name);
    FoldGrows(entries, i + 1, now, wanted, thunk);
    var s1 := Fold(entries[..i + 1], now, wanted, thunk).st;
    assert id in s1.bad by {
      FoldGrows(entries, i, now, wanted, thunk);
      FoldSnoc(entries, i, now, wanted, thunk);
    }
    var k :| 0 <= k < |s1.bad| && s1.bad[k] == id;
    var last := Fold(entries, now, wanted, thunk).st;
    assert last.bad[k] == id;
  }

  /** The loop after entry `i` is one more step from the loop before it. */
  lemma FoldSnoc(entries: seq<CacheEntry>, i: nat, now: int, wanted: set<string>, thunk: Thunk)
    requires i < |entries| && Fold(entries[..i], now, wanted, thunk).Running?
    ensures Fold(entries[..i + 1], now, wanted, thunk)
            == Step(Fold(entries[..i], now, wanted, thunk).st, entries[i], now, wanted, thunk)
  {
    var pre := entries[..i + 1];
    assert pre[..|pre| - 1] == entries[..i];
    assert pre[|pre| - 1] == entries[i];
  }

  /** Only the cache files: entries whose name ends in ".xml". */
  function CacheFilesOf(entries: seq<CacheEntry>): (r: seq<CacheEntry>)
    ensures forall k :: 0 <= k < |r| ==> IsCacheFile(r[k].name)
    decreases |entries|
  {
    if |entries| == 0 then []
    else
      var e := entries[|entries| - 1];
      CacheFilesOf(entries[..|entries| - 1]) + (if IsCacheFile(e.name) then [e] else [])
  }

  /** Entries whose name does not end in ".xml" are not looked at. */
  lemma {:induction false} FoldIgnoresOtherEntries(entries: seq<CacheEntry>, now: int, wanted: set<string>, thunk: Thunk)
    ensures Fold(entries, now, wanted, thunk) == Fold(CacheFilesOf(entries), now, wanted, thunk)
    decreases |entries|
  {
    if |entries| > 0 {
      var init := entries[..|entries| - 1];
      var e := entries[|entries| - 1];
      FoldIgnoresOtherEntries(init, now, wanted, thunk);
      if IsCacheFile(e.name) {
        PrefixOfSnoc(CacheFilesOf(init), e);
      } else {
        assert CacheFilesOf(entries) == CacheFilesOf(init);
      }
    }
  }

  lemma NonCacheFilesIgnored(entries: seq<CacheEntry>, now: int, wanted: set<string>, thunk: Thunk)
    ensures ParseGanglia(entries, now, wanted, thunk) == ParseGanglia(CacheFilesOf(entries), now, wanted, thunk)
  {
    FoldIgnoresOtherEntries(entries, now, wanted, thunk);
  }

  /** Two runs that agree on everything the clock cannot influence. */
  predicate SameDispatch(p: Progress, q: Progress) {
    && p.Running? == q.Running?
    && (p.Halted? ==> p == q)
    && (p.Running? ==> p.st.calls == q.st.calls && p.st.output == q.st.output)
  }

  /**
   Freshness and parseability are independent defects: the clock decides only
   the status and the bad list, never which thunk calls are made or whether the
   scan aborts (a stale file is still parsed and dispatched).
   */
  lemma {:induction false} FoldClockIndependent(entries: seq<CacheEntry>, now1: int, now2: int, wanted: set<string>, thunk: Thunk)
    ensures SameDispatch(Fold(entries, now1, wanted, thunk), Fold(entries, now2, wanted, thunk))
    decreases |entries|
  {
    if |entries| > 0 {
      var init := entries[..|entries| - 1];
      FoldClockIndependent(init, now1, now2, wanted, thunk);
      var p1 := Fold(init, now1, wanted, thunk);
      var p2 := Fold(init, now2, wanted, thunk);
      if p1.Running? {
        StepClockIndependent(p1.st, p2.st, entries[|entries| - 1], now1, now2, wanted, thunk);
      }
    }
  }

  /** One iteration at two clock readings, from states that agree on calls and output. */
  lemma StepClockIndependent(st1: ScanState, st2: ScanState, e: CacheEntry, now1: int, now2: int, wanted: set<string>, thunk: Thunk)
    requires st1.calls == st2.calls && st1.output == st2.output
    ensures SameDispatch(Step(st1, e, now1, wanted, thunk), Step(st2, e, now2, wanted, thunk))
  {
  }

  lemma ClockDoesNotChangeCalls(entries: seq<CacheEntry>, now1: int, now2: int, wanted: set<string>, thunk: Thunk)
    ensures var r1 := ParseGanglia(entries, now1, wanted, thunk);
            var r2 := ParseGanglia(entries, now2, wanted, thunk);
            && r1.Aborted? == r2.Aborted?
            && r1.calls == r2.calls
            && (r1.Aborted? ==> r1 == r2)
  {
    FoldClockIndependent(entries, now1, now2, wanted, thunk);
  }

  /** The scan can change nothing after the loop: a non-empty bad list has already made the status CRITICAL. */
  lemma FinalEscalationIsRedundant(entries: seq<CacheEntry>, now: int, wanted: set<string>, thunk: Thunk)
    requires Fold(entries, now, wanted, thunk).Running?
    ensures ParseGanglia(entries, now, wanted, thunk).status == Fold(entries, now, wanted, thunk).st.status
  {
  }

  /** A scan aborted by an entry is the same whatever entries follow it. */
  lemma AbortStopsScan(entries: seq<CacheEntry>, i: nat, now: int, wanted: set<string>, thunk: Thunk)
    requires i <= |entries|
    requires ParseGanglia(entries[..i], now, wanted, thunk).Aborted?
    ensures ParseGanglia(entries, now, wanted, thunk) == ParseGanglia(entries[..i], now, wanted, thunk)
  {
    AbortIsFinal(entries, i, now, wanted, thunk);
  }

  /** The thunk returns on every call. */
  ghost predicate NeverRaises(thunk: Thunk) {
    forall history, c :: thunk(history, c) == Returns
  }

  /** Every cache file is fresh and parses. */
  predicate Healthy(entries: seq<CacheEntry>, now: int) {
    forall k :: 0 <= k < |entries| && IsCacheFile(entries[k].name) ==>
      !IsStale(now, entries[k].mtime) && entries[k].content.Parsed?
  }

  /** The calls one loop iteration asks the thunk for: the wanted metrics of a parsed cache file, none otherwise. */
  function FileCalls(e: CacheEntry, wanted: set<string>): seq<Call> {
    if IsCacheFile(e.name) && e.content.Parsed? then DocumentCalls(e.content.clusters, wanted) else []
  }

  /**
   One iteration whose calls all return: the loop goes on, the file's calls are
   all made, nothing is printed, and a fresh parsed file changes nothing else.
   */
  lemma StepReturning(st: ScanState, e: CacheEntry, now: int, wanted: set<string>, thunk: Thunk)
    requires AllReturned(st.calls, FileCalls(e, wanted), thunk)
    ensures var p := Step(st, e, now, wanted, thunk);
            && p.Running?
            && p.st.calls == st.calls + FileCalls(e, wanted)
            && p.st.output == st.output
            && ((IsCacheFile(e.name) ==> !IsStale(now, e.mtime) && e.content.Parsed?) ==> p == Running(st.(calls := st.calls + FileCalls(e, wanted))))
  {
    if !(IsCacheFile(e.name) && e.content.Parsed?) {
      assert st.calls + [] == st.calls;
    }
  }

  /** One iteration with a thunk that never raises. */
  lemma StepNeverRaising(st: ScanState, e: CacheEntry, now: int, wanted: set<string>, thunk: Thunk)
    requires NeverRaises(thunk)
    ensures var p := Step(st, e, now, wanted, thunk);
            && p.Running?
            && p.st.calls == st.calls + FileCalls(e, wanted)
            && p.st.output == st.output
            && ((IsCacheFile(e.name) ==> !IsStale(now, e.mtime) && e.content.Parsed?) ==> p == Running(st.(calls := st.calls + FileCalls(e, wanted))))
  {
    NeverRaisesAllReturned(st.calls, FileCalls(e, wanted), thunk);
    StepReturning(st, e, now, wanted, thunk);
  }

  /**
   Whatever the thunk does, an iteration that leaves the bad list empty found
   it empty, made every call the file asks for and printed nothing: no call
   raised.
   */
  lemma StepWithoutBad(st: ScanState, e: CacheEntry, now: int, wanted: set<string>, thunk: Thunk)
    requires Step(st, e, now, wanted, thunk).Running?
    requires |Step(st, e, now, wanted, thunk).st.bad| == 0
    ensures |st.bad| == 0
    ensures Step(st, e, now, wanted, thunk).st.calls == st.calls + FileCalls(e, wanted)
    ensures Step(st, e, now, wanted, thunk).st.output == st.output
  {
    var p := Step(st, e, now, wanted, thunk);
    assert !Defective(e, now) && !ThunkFailsFile(st, e, wanted, thunk);
    if IsCacheFile(e.name) && e.content.Parsed? {
      var d := Dispatch(DocumentCalls(e.content.clusters, wanted), st.calls, thunk);
      assert d.ending.Completed?;
    } else {
      assert st.calls + [] == st.calls;
    }
  }

  /** The loop over a single entry is one iteration from the start state. */
  lemma FoldOne(e: CacheEntry, now: int, wanted: set<string>, thunk: Thunk)
    ensures Fold([e], now, wanted, thunk) == Step(Start, e, now, wanted, thunk)
  {
    assert [e][..0] == [];
  }

  /** Every wanted metric of every parsed cache file, files in enumeration order, each in document order. */
  function AllCalls(entries: seq<CacheEntry>, wanted: set<string>): seq<Call>
    decreases |entries|
  {
    if |entries| == 0 then []
    else
      var e := entries[|entries| - 1];
      AllCalls(entries[..|entries| - 1], wanted) + FileCalls(e, wanted)
  }

  lemma NeverRaisesAllReturned(history: seq<Call>, pending: seq<Call>, thunk: Thunk)
    requires NeverRaises(thunk)
    ensures AllReturned(history, pending, thunk)
  {
    forall k | 0 <= k < |pending|
      ensures ReturnsAt(history, pending, thunk, k)
    {
      assert thunk(history + pending[..k], pending[k]) == Returns;
    }
  }

  /** A split of a run of returning calls: its first part returns, and so does the rest after it. */
  lemma AllReturnedSplit(history: seq<Call>, a: seq<Call>, b: seq<Call>, thunk: Thunk)
    requires AllReturned(history, a + b, thunk)
    ensures AllReturned(history, a, thunk)
    ensures AllReturned(history + a, b, thunk)
  {
    forall k | 0 <= k < |a|
      ensures ReturnsAt(history, a, thunk, k)
    {
      assert ReturnsAt(history, a + b, thunk, k);
      assert (a + b)[..k] == a[..k];
    }
    forall k | 0 <= k < |b|
      ensures ReturnsAt(history + a, b, thunk, k)
    {
      assert ReturnsAt(history, a + b, thunk, |a| + k);
      assert (a + b)[..|a| + k] == a + b[..k];
      assert (a + b)[|a| + k] == b[k];
      assert history + (a + b[..k]) == (history + a) + b[..k];
    }
  }

  /**
   Whatever the thunk does, a loop that ends running with an empty bad list
   made every wanted call of every parsed cache file and printed nothing.
   */
  lemma {:induction false} FoldWithoutBad(entries: seq<CacheEntry>, now: int, wanted: set<string>, thunk: Thunk)
    ensures var p := Fold(entries, now, wanted, thunk);
            p.Running? && |p.st.bad| == 0 ==> p.st.calls == AllCalls(entries, wanted) && p.st.output == ""
    decreases |entries|
  {
    var p := Fold(entries, now, wanted, thunk);
    if |entries| > 0 && p.Running? && |p.st.bad| == 0 {
      var init := entries[..|entries| - 1];
      var e := entries[|entries| - 1];
      var q := Fold(init, now, wanted, thunk);
      assert q.Running?;
      assert p == Step(q.st, e, now, wanted, thunk);
      StepWithoutBad(q.st, e, now, wanted, thunk);
      FoldWithoutBad(init, now, wanted, thunk);
      assert AllCalls(entries, wanted) == AllCalls(init, wanted) + FileCalls(e, wanted);
    }
  }

  /**
   Whatever the thunk does, a scan that finishes with an empty bad list is OK,
   made every wanted call of every parsed cache file and printed nothing: no
   STALE line and no thunk message.
   */
  lemma CleanScanMadeEveryCall(entries: seq<CacheEntry>, now: int, wanted: set<string>, thunk: Thunk)
    ensures var r := ParseGanglia(entries, now, wanted, thunk);
            r.Finished? && |r.bad| == 0 ==> r == Finished(Ok, [], AllCalls(entries, wanted), "")
  {
    FoldWithoutBad(entries, now, wanted, thunk);
  }

  /**
   When every call of the scan returns, given the calls before it, the loop
   runs to the end, makes every wanted call and prints nothing; over a healthy
   cache it changes nothing else.
   */
  lemma {:induction false} FoldReturning(entries: seq<CacheEntry>, now: int, wanted: set<string>, thunk: Thunk)
    requires AllReturned([], AllCalls(entries, wanted), thunk)
    ensures Fold(entries, now, wanted, thunk).Running?
    ensures Fold(entries, now, wanted, thunk).st.calls == AllCalls(entries, wanted)
    ensures Fold(entries, now, wanted, thunk).st.output == ""
    ensures Healthy(entries, now) ==> Fold(entries, now, wanted, thunk) == Running(Start.(calls := AllCalls(entries, wanted)))
    decreases |entries|
  {
    if |entries| > 0 {
      var init := entries[..|entries| - 1];
      var e := entries[|entries| - 1];
      assert AllReturned([], AllCalls(init, wanted), thunk) && AllReturned(AllCalls(init, wanted), FileCalls(e, wanted), thunk) by {
        assert AllCalls(entries, wanted) == AllCalls(init, wanted) + FileCalls(e, wanted);
        AllReturnedSplit([], AllCalls(init, wanted), FileCalls(e, wanted), thunk);
        assert [] + AllCalls(init, wanted) == AllCalls(init, wanted);
      }
      FoldReturning(init, now, wanted, thunk);
      var st := Fold(init, now, wanted, thunk).st;
      assert Fold(entries, now, wanted, thunk) == Step(st, e, now, wanted, thunk);
      StepReturning(st, e, now, wanted, thunk);
      assert AllCalls(entries, wanted) == st.calls + FileCalls(e, wanted);
      if Healthy(entries, now) {
        assert Healthy(init, now) by {
          forall k | 0 <= k < |init| && IsCacheFile(init[k].name)
            ensures !IsStale(now, init[k].mtime) && init[k].content.Parsed?
          {
            assert init[k] == entries[k];
          }
        }
      }
    }
  }

  /**
   When every call of the scan returns, the scan finishes and the thunk receives
   exactly the wanted metrics of every parsed cache file, file by file in
   enumeration order and in document order within a file, stale files included.
   */
  lemma ReturningThunkSeesEveryMatch(entries: seq<CacheEntry>, now: int, wanted: set<string>, thunk: Thunk)
    requires AllReturned([], AllCalls(entries, wanted), thunk)
    ensures var r := ParseGanglia(entries, now, wanted, thunk);
            && r.Finished?
            && r.calls == AllCalls(entries, wanted)
            && r.output == (if |r.bad| > 0 then StaleLine(r.bad) else "")
  {
    FoldReturning(entries, now, wanted, thunk);
  }

  /** A cache of fresh, well-formed files and a scan whose calls all return: status OK, nothing bad, no output. */
  lemma HealthyCacheIsOk(entries: seq<CacheEntry>, now: int, wanted: set<string>, thunk: Thunk)
    requires AllReturned([], AllCalls(entries, wanted), thunk) && Healthy(entries, now)
    ensures ParseGanglia(entries, now, wanted, thunk) == Finished(Ok, [], AllCalls(entries, wanted), "")
  {
    FoldReturning(entries, now, wanted, thunk);
  }

  /** The ids of the stale or unparsable cache files, in enumeration order, repeats kept. */
  function DefectIds(entries: seq<CacheEntry>, now: int): seq<string>
    decreases |entries|
  {
    if |entries| == 0 then []
    else
      var e := entries[|entries| - 1];
      DefectIds(entries[..|entries| - 1], now) + (if Defective(e, now) then [Id(e.name)] else [])
  }

  /** An iteration whose calls all return adds the file's id exactly when the file is stale or unparsable. */
  lemma StepReturningBad(st: ScanState, e: CacheEntry, now: int, wanted: set<string>, thunk: Thunk)
    requires AllReturned(st.calls, FileCalls(e, wanted), thunk)
    ensures Step(st, e, now, wanted, thunk).Running?
    ensures Step(st, e, now, wanted, thunk).st.bad == if Defective(e, now) then GoBad(st.bad, Id(e.name)) else st.bad
  {
    if IsCacheFile(e.name) && e.content.Parsed? {
      DispatchCompletes(DocumentCalls(e.content.clusters, wanted), st.calls, thunk);
    }
    assert !ThunkFailsFile(st, e, wanted, thunk);
  }

  lemma {:induction false} FoldBadList(entries: seq<CacheEntry>, now: int, wanted: set<string>, thunk: Thunk)
    requires AllReturned([], AllCalls(entries, wanted), thunk)
    ensures Fold(entries, now, wanted, thunk).Running?
    ensures Fold(entries, now, wanted, thunk).st.bad == FirstOccurrences(DefectIds(entries, now))
    decreases |entries|
  {
    if |entries| > 0 {
      var init := entries[..|entries| - 1];
      var e := entries[|entries| - 1];
      assert AllReturned([], AllCalls(init, wanted), thunk) && AllReturned(AllCalls(init, wanted), FileCalls(e, wanted), thunk) by {
        assert AllCalls(entries, wanted) == AllCalls(init, wanted) + FileCalls(e, wanted);
        AllReturnedSplit([], AllCalls(init, wanted), FileCalls(e, wanted), thunk);
        assert [] + AllCalls(init, wanted) == AllCalls(init, wanted);
      }
      FoldBadList(init, now, wanted, thunk);
      FoldReturning(init, now, wanted, thunk);
      var st := Fold(init, now, wanted, thunk).st;
      assert Fold(entries, now, wanted, thunk) == Step(st, e, now, wanted, thunk);
      StepReturningBad(st, e, now, wanted, thunk);
      if Defective(e, now) {
        GoBadKeepsFirstOccurrences(DefectIds(init, now), Id(e.name));
      } else {
        assert DefectIds(entries, now) == DefectIds(init, now) + [];
        assert DefectIds(init, now) + [] == DefectIds(init, now);
      }
    }
  }

  /**
   When every call of the scan returns, the bad list is exactly the ids of the
   stale or unparsable cache files, each once, in the order they were first met.
   */
  lemma BadListOfReturningScan(entries: seq<CacheEntry>, now: int, wanted: set<string>, thunk: Thunk)
    requires AllReturned([], AllCalls(entries, wanted), thunk)
    ensures ParseGanglia(entries, now, wanted, thunk).Finished?
    ensures ParseGanglia(entries, now, wanted, thunk).bad == FirstOccurrences(DefectIds(entries, now))
  {
    FoldBadList(entries, now, wanted, thunk);
  }

  /** The STALE line lists the ids in bad-list order, one space after each. */
  lemma {:induction false} IdListAppend(a: seq<string>, b: seq<string>)
    ensures IdList(a + b) == IdList(a) + IdList(b)
    decreases |a|
  {
    if |a| == 0 {
      assert a + b == b;
    } else {
      assert (a + b)[1..] == a[1..] + b;
      IdListAppend(a[1..], b);
    }
  }

  lemma StaleLineOne(id: string)
    ensures StaleLine([id]) == StaleHeader + id + " "
  {
    assert [id][1..] == [];
    assert IdList([id]) == id + " " + IdList([]);
  }

  /** A cache file exactly 300 seconds old is still fresh: the comparison is strict. */
  lemma ExactlyStaleTimeIsFresh(name: string, now: int, clusters: seq<Cluster>, wanted: set<string>, thunk: Thunk)
    requires IsCacheFile(name) && NeverRaises(thunk)
    ensures ParseGanglia([CacheEntry(name, now - 300, Parsed(clusters))], now, wanted, thunk)
            == Finished(Ok, [], DocumentCalls(clusters, wanted), "")
  {
    var entries := [CacheEntry(name, now - 300, Parsed(clusters))];
    assert Healthy(entries, now);
    HealthyCacheIsOk(entries, now, wanted, thunk);
    assert entries[..0] == [];
    assert AllCalls(entries, wanted) == AllCalls([], wanted) + DocumentCalls(clusters, wanted);
    assert [] + DocumentCalls(clusters, wanted) == DocumentCalls(clusters, wanted);
  }

  /** A lone stale cache file that parses is reported, and its wanted metrics are still dispatched. */
  lemma StaleFileReported(name: string, now: int, mtime: int, clusters: seq<Cluster>, wanted: set<string>, thunk: Thunk)
    requires IsCacheFile(name) && IsStale(now, mtime) && NeverRaises(thunk)
    ensures ParseGanglia([CacheEntry(name, mtime, Parsed(clusters))], now, wanted, thunk)
            == Finished(Critical, [Id(name)], DocumentCalls(clusters, wanted), StaleHeader + Id(name) + " ")
  {
    StaleFileAlone(CacheEntry(name, mtime, Parsed(clusters)), now, wanted, thunk);
    StaleLineOne(Id(name));
  }

  /** The loop over a lone stale cache file that parses, with a thunk that never raises. */
  lemma StaleFileAlone(e: CacheEntry, now: int, wanted: set<string>, thunk: Thunk)
    requires IsCacheFile(e.name) && IsStale(now, e.mtime) && e.content.Parsed? && NeverRaises(thunk)
    ensures Fold([e], now, wanted, thunk)
            == Running(ScanState(Critical, [Id(e.name)], DocumentCalls(e.content.clusters, wanted), ""))
  {
    FoldOne(e, now, wanted, thunk);
    var p := Step(Start, e, now, wanted, thunk);
    assert p.Running? && p.st.calls == DocumentCalls(e.content.clusters, wanted) && p.st.output == "" by {
      StepNeverRaising(Start, e, now, wanted, thunk);
      assert FileCalls(e, wanted) == DocumentCalls(e.content.clusters, wanted);
      assert [] + DocumentCalls(e.content.clusters, wanted) == DocumentCalls(e.content.clusters, wanted);
    }
    assert p.st.bad == [Id(e.name)] by {
      NeverRaisesAllReturned(Start.calls, FileCalls(e, wanted), thunk);
      StepReturningBad(Start, e, now, wanted, thunk);
      assert GoBad([], Id(e.name)) == [Id(e.name)];
    }
    assert Consistent(p.st);
  }

  /** One second older than the threshold, the same file is stale. */
  lemma OneSecondOlderIsStale(name: string, now: int, clusters: seq<Cluster>, wanted: set<string>, thunk: Thunk)
    requires IsCacheFile(name) && NeverRaises(thunk)
    ensures ParseGanglia([CacheEntry(name, now - 301, Parsed(clusters))], now, wanted, thunk)
            == Finished(Critical, [Id(name)], DocumentCalls(clusters, wanted), StaleHeader + Id(name) + " ")
  {
    StaleFileReported(name, now, now - 301, clusters, wanted, thunk);
  }

  /** A file both stale and unparsable is reported once. */
  lemma StaleAndBrokenReportedOnce(name: string, now: int, mtime: int, wanted: set<string>, thunk: Thunk)
    requires IsCacheFile(name) && IsStale(now, mtime)
    ensures ParseGanglia([CacheEntry(name, mtime, ParseError)], now, wanted, thunk)
            == Finished(Critical, [Id(name)], [], StaleHeader + Id(name) + " ")
  {
    var e := CacheEntry(name, mtime, ParseError);
    assert [e][..0] == [];
    assert Fold([e], now, wanted, thunk) == Running(ScanState(Critical, [Id(name)], [], ""));
    StaleLineOne(Id(name));
  }

  /** A plain name loses its extension: "cluster2.xml" is reported as "cluster2". */
  lemma IdOfPlainName(x: string)
    requires !Contains(x, ".xml")
    ensures Id(x + ".xml") == x
  {
    RemoveFirstXml(x, "");
    assert x + ".xml" + "" == x + ".xml";
  }

  /** Every ".xml" is deleted, not just a trailing one: "a.xml.xml" is reported as "a". */
  lemma IdOfDoubleExtension(x: string)
    requires !Contains(x, ".xml")
    ensures Id(x + ".xml" + ".xml") == x
  {
    RemoveFirstXml(x, ".xml");
    ShortNoXml("");
    IdOfPlainName("");
    assert "" + ".xml" == ".xml";
  }

  /**
   An inner ".xml" is deleted too, not only the extension: with no ".xml" in
   `x` or `y`, the file `x.xml` + `y.xml` is reported as `x` + `y`
   ("a.xml.b.xml" as "a.b").
   */
  lemma IdOfInnerExtension(x: string, y: string)
    requires !Contains(x, ".xml") && !Contains(y, ".xml")
    ensures Id(x + ".xml" + y + ".xml") == x + y
  {
    RemoveFirstXml(x, y + ".xml");
    RemoveFirstXml(y, "");
    assert y + ".xml" + "" == y + ".xml";
    assert x + ".xml" + y + ".xml" == x + ".xml" + (y + ".xml");
  }

  /** An unparsable cache file whose id is already bad changes nothing. */
  lemma KnownIdBrokenAgain(st: ScanState, e: CacheEntry, now: int, wanted: set<string>, thunk: Thunk)
    requires Consistent(st) && IsCacheFile(e.name) && e.content.ParseError? && Id(e.name) in st.bad
    ensures Step(st, e, now, wanted, thunk) == Running(st)
  {
  }

  /** Two unparsable cache files with the same id leave one bad entry. */
  lemma SharedIdReportedOnce(n1: string, n2: string, mtime1: int, mtime2: int, now: int, wanted: set<string>, thunk: Thunk)
    requires IsCacheFile(n1) && IsCacheFile(n2) && Id(n1) == Id(n2)
    ensures ParseGanglia([CacheEntry(n1, mtime1, ParseError), CacheEntry(n2, mtime2, ParseError)], now, wanted, thunk)
            == Finished(Critical, [Id(n1)], [], StaleHeader + Id(n1) + " ")
  {
    SharedIdLoop(CacheEntry(n1, mtime1, ParseError), CacheEntry(n2, mtime2, ParseError), now, wanted, thunk);
    StaleLineOne(Id(n1));
  }

  /** The loop over two unparsable cache files with the same id. */
  lemma SharedIdLoop(e1: CacheEntry, e2: CacheEntry, now: int, wanted: set<string>, thunk: Thunk)
    requires IsCacheFile(e1.name) && IsCacheFile(e2.name) && Id(e1.name) == Id(e2.name)
    requires e1.content.ParseError? && e2.content.ParseError?
    ensures Fold([e1, e2], now, wanted, thunk) == Running(ScanState(Critical, [Id(e1.name)], [], ""))
  {
    var st := ScanState(Critical, [Id(e1.name)], [], "");
    BrokenFileAlone(e1, now, wanted, thunk);
    FoldTwo(e1, e2, st, now, wanted, thunk);
    KnownIdBrokenAgain(st, e2, now, wanted, thunk);
  }

  /** The loop over two entries: the second iteration starts from where the first left off. */
  lemma FoldTwo(e1: CacheEntry, e2: CacheEntry, st: ScanState, now: int, wanted: set<string>, thunk: Thunk)
    requires Fold([e1], now, wanted, thunk) == Running(st)
    ensures Fold([e1, e2], now, wanted, thunk) == Step(st, e2, now, wanted, thunk)
  {
    assert [e1, e2][..1] == [e1];
  }

  /** The loop over a lone unparsable cache file, stale or not. */
  lemma BrokenFileAlone(e: CacheEntry, now: int, wanted: set<string>, thunk: Thunk)
    requires IsCacheFile(e.name) && e.content.ParseError?
    ensures Fold([e], now, wanted, thunk) == Running(ScanState(Critical, [Id(e.name)], [], ""))
  {
    var st := ScanState(Critical, [Id(e.name)], [], "");
    FoldOne(e, now, wanted, thunk);
    assert MarkBad(Start, Id(e.name)) == st;
  }

  /** "a.xml" and "a.xml.xml" are distinct cache files that share the id "a". */
  lemma DistinctFilesSharingAnId(x: string)
    requires !Contains(x, ".xml")
    ensures IsCacheFile(x + ".xml") && IsCacheFile(x + ".xml" + ".xml")
    ensures x + ".xml" != x + ".xml" + ".xml"
    ensures Id(x + ".xml") == x && Id(x + ".xml" + ".xml") == x
  {
    IdOfPlainName(x);
    IdOfDoubleExtension(x);
    assert |x + ".xml"| < |x + ".xml" + ".xml"|;
  }

  /** Worked example: one fresh file, one host, one wanted metric, one call with VAL verbatim. */
  lemma FreshClusterExample(now: int, thunk: Thunk)
    requires NeverRaises(thunk)
    ensures ParseGanglia([CacheEntry("cluster1.xml", now, Parsed([Cluster([Host("web1", [Metric("disk_pct", "42")])])]))],
                         now, {"disk_pct"}, thunk)
            == Finished(Ok, [], [Call("web1", "disk_pct", "42")], "")
  {
    var clusters := [Cluster([Host("web1", [Metric("disk_pct", "42")])])];
    assert IsCacheFile("cluster1.xml") by {
      assert "cluster1.xml"[8..] == ".xml";
    }
    SingleMetricCall("web1", Metric("disk_pct", "42"), {"disk_pct"});
    ExactlyStaleTimeIsFresh("cluster1.xml", now + 300, clusters, {"disk_pct"}, thunk);
    assert [CacheEntry("cluster1.xml", now, Parsed(clusters))] == [CacheEntry("cluster1.xml", now + 300 - 300, Parsed(clusters))];
    var entries := [CacheEntry("cluster1.xml", now, Parsed(clusters))];
    HealthyCacheIsOk(entries, now, {"disk_pct"}, thunk);
    assert entries[..0] == [];
    assert AllCalls(entries, {"disk_pct"}) == DocumentCalls(clusters, {"disk_pct"});
  }

  /** Worked example: a file 600 seconds old makes the scan CRITICAL and is named in the STALE line. */
  lemma StaleClusterExample(now: int, clusters: seq<Cluster>, wanted: set<string>, thunk: Thunk)
    requires NeverRaises(thunk)
    ensures ParseGanglia([CacheEntry("cluster2.xml", now - 600, Parsed(clusters))], now, wanted, thunk)
            == Finished(Critical, ["cluster2"], DocumentCalls(clusters, wanted), StaleHeader + "cluster2 ")
  {
    Cluster2Names();
    StaleFileReported("cluster2.xml", now, now - 600, clusters, wanted, thunk);
  }

  lemma Cluster2Names()
    ensures IsCacheFile("cluster2.xml")
    ensures Id("cluster2.xml") == "cluster2"
    ensures StaleHeader + "cluster2" + " " == StaleHeader + "cluster2 "
  {
    NoDotNoXml("cluster2");
    IdOfPlainName("cluster2");
    assert "cluster2" + ".xml" == "cluster2.xml";
    assert "cluster2.xml"[8..] == ".xml";
    assert "cluster2" + " " == "cluster2 ";
  }

  /** When the first call raises, it is the only call made. */
  lemma DispatchFirstRaises(pending: seq<Call>, history: seq<Call>, thunk: Thunk)
    requires |pending| > 0 && !thunk(history, pending[0]).Returns?
    ensures var r := thunk(history, pending[0]);
            Dispatch(pending, history, thunk)
            == Dispatched([pending[0]], ThunkLine(r.msg), if r.Throws? then Abort(r.msg) else FileFailed(r.msg))
  {
  }

  /**
   A cache file whose first call raises: an ordinary exception halts the scan;
   the parser's exception class marks the file bad, stale or not.
   */
  lemma StepFirstCallRaises(st: ScanState, e: CacheEntry, now: int, wanted: set<string>, thunk: Thunk)
    requires IsCacheFile(e.name) && e.content.Parsed?
    requires |DocumentCalls(e.content.clusters, wanted)| > 0
    requires !thunk(st.calls, DocumentCalls(e.content.clusters, wanted)[0]).Returns?
    ensures var c := DocumentCalls(e.content.clusters, wanted)[0];
            var r := thunk(st.calls, c);
            Step(st, e, now, wanted, thunk)
            == if r.Throws? then Halted(st.calls + [c], st.output + ThunkLine(r.msg), r.msg)
               else Running(ScanState(Critical, GoBad(st.bad, Id(e.name)), st.calls + [c], st.output + ThunkLine(r.msg)))
  {
    DispatchFirstRaises(DocumentCalls(e.content.clusters, wanted), st.calls, thunk);
  }

  /**
   A thunk that raises the parser's own exception class makes the file count as
   unparsable: its message is printed, the file is reported, and the scan goes on.
   */
  lemma ThunkParseErrorMarksFileBad(name: string, now: int, clusters: seq<Cluster>, wanted: set<string>,
                                    thunk: Thunk, msg: string)
    requires IsCacheFile(name)
    requires |DocumentCalls(clusters, wanted)| > 0
    requires thunk([], DocumentCalls(clusters, wanted)[0]) == ThrowsParseError(msg)
    ensures ParseGanglia([CacheEntry(name, now, Parsed(clusters))], now, wanted, thunk)
            == Finished(Critical, [Id(name)], [DocumentCalls(clusters, wanted)[0]],
                        ThunkLine(msg) + StaleLine([Id(name)]))
  {
    var e := CacheEntry(name, now, Parsed(clusters));
    var c := DocumentCalls(clusters, wanted)[0];
    assert [e][..0] == [];
    assert Fold([e], now, wanted, thunk) == Step(Start, e, now, wanted, thunk);
    StepFirstCallRaises(Start, e, now, wanted, thunk);
    assert [] + [c] == [c] && "" + ThunkLine(msg) == ThunkLine(msg);
    assert GoBad([], Id(name)) == [Id(name)];
    assert Fold([e], now, wanted, thunk) == Running(ScanState(Critical, [Id(name)], [c], ThunkLine(msg)));
  }

  /**
   Any other thunk exception propagates, whichever file and whichever call
   raises it: the scan ends with the calls made so far (the file's calls up to
   and including the raising one, which `Dispatch` characterises), the message
   printed, and no STALE line.
   */
  lemma ThunkExceptionAbortsScan(entries: seq<CacheEntry>, i: nat, now: int, wanted: set<string>, thunk: Thunk)
    requires i < |entries| && IsCacheFile(entries[i].name) && entries[i].content.Parsed?
    requires Fold(entries[..i], now, wanted, thunk).Running?
    requires Dispatch(DocumentCalls(entries[i].content.clusters, wanted),
                      Fold(entries[..i], now, wanted, thunk).st.calls, thunk).ending.Abort?
    ensures var st := Fold(entries[..i], now, wanted, thunk).st;
            var d := Dispatch(DocumentCalls(entries[i].content.clusters, wanted), st.calls, thunk);
            ParseGanglia(entries, now, wanted, thunk) == Aborted(st.calls + d.made, st.output + d.output, d.ending.msg)
  {
    FoldHaltsAt(entries, i, now, wanted, thunk);
  }

  /** The loop halts at the entry whose dispatch aborts, and stays halted. */
  lemma FoldHaltsAt(entries: seq<CacheEntry>, i: nat, now: int, wanted: set<string>, thunk: Thunk)
    requires i < |entries| && IsCacheFile(entries[i].name) && entries[i].content.Parsed?
    requires Fold(entries[..i], now, wanted, thunk).Running?
    requires Dispatch(DocumentCalls(entries[i].content.clusters, wanted),
                      Fold(entries[..i], now, wanted, thunk).st.calls, thunk).ending.Abort?
    ensures var st := Fold(entries[..i], now, wanted, thunk).st;
            var d := Dispatch(DocumentCalls(entries[i].content.clusters, wanted), st.calls, thunk);
            Fold(entries, now, wanted, thunk) == Halted(st.calls + d.made, st.output + d.output, d.ending.msg)
  {
    FoldSnoc(entries, i, now, wanted, thunk);
    AbortIsFinal(entries, i + 1, now, wanted, thunk);
  }

  /**
   A lone file whose first call raises another exception: the scan stops after
   printing its message, and even a stale file is never reported.
   */
  lemma ThunkExceptionSuppressesReport(name: string, now: int, mtime: int, clusters: seq<Cluster>,
                                       wanted: set<string>, thunk: Thunk, msg: string)
    requires IsCacheFile(name)
    requires |DocumentCalls(clusters, wanted)| > 0
    requires thunk([], DocumentCalls(clusters, wanted)[0]) == Throws(msg)
    ensures ParseGanglia([CacheEntry(name, mtime, Parsed(clusters))], now, wanted, thunk)
            == Aborted([DocumentCalls(clusters, wanted)[0]], ThunkLine(msg), msg)
  {
    var e := CacheEntry(name, mtime, Parsed(clusters));
    var c := DocumentCalls(clusters, wanted)[0];
    FoldOne(e, now, wanted, thunk);
    StepFirstCallRaises(Start, e, now, wanted, thunk);
    assert [] + [c] == [c] && "" + ThunkLine(msg) == ThunkLine(msg);
  }
}

=== FILE: ganglia.dfy ===
/**
 Values shared by both query modes: the metric tree read from the ganglia XML
 cache, the staleness threshold and the status codes handed to nagios.
 */
module Ganglia {

  datatype Option<T> = None | Some(value: T)

  /** A METRIC element: its NAME and VAL attributes, passed on verbatim. */
  datatype Metric = Metric(name: string, val: string)

  /** A HOST element: its NAME attribute and its METRIC children in document order. */
  datatype Host = Host(name: string, metrics: seq<Metric>)

  /** A top-level child of the root of an aggregate cache file, with its HOST children. */
  datatype Cluster = Cluster(hosts: seq<Host>)

  /** `_stale_time`: seconds after which a cache file counts as old data. */
  const StaleTime: int := 300

  /** Nagios status codes; WARNING (1) exists in nagios but is never produced. */
  const Ok: int := 0
  const Critical: int := 2

  /**
   `time.time() - mod_time > _stale_time`. The comparison is strict: a file
   exactly StaleTime seconds old is still fresh. Times are whole seconds.
   */
  predicate IsStale(now: int, mtime: int) {
    now - mtime > StaleTime
  }
}

=== FILE: host_resolve.dfy ===
/**
 Mode (b) of ganglios: `get_metric_for_host` maps a host name to its per-host
 cache file and returns one metric's VAL, or ends the check through `done`.

 The reverse lookup, the listing of the hosts directory, each file's mtime and
 the XML parser are inputs. `done(2)` becomes the `Exit` outcome carrying what
 the check wrote to stdout; the implicit `None` return becomes `NoValue`.
 */
module HostResolve {
  import opened Ganglia
  import opened Text

  /** Interface labels that name an address of a host rather than the host. */
  const InterfacePrefixes: set<string> := {"int", "eth0", "eth1", "tunnel0", "tunnel1"}

  /**
   Drop the first '.'-separated label when it is an interface label; only that
   one label goes ("int.int.x" becomes "int.x"), and a bare label ("int")
   leaves the empty name.
   */
  function StripInterface(hostname: string): (r: string)
    ensures FirstSegment(hostname) !in InterfacePrefixes ==> r == hostname
    ensures FirstSegment(hostname) in InterfacePrefixes ==>
              if FirstSegment(hostname) == hostname then r == ""
              else hostname == FirstSegment(hostname) + "." + r
  {
    var parts := Split(hostname);
    SplitHead(hostname);
    var seg := FirstSegment(hostname);
    assert |seg| < |hostname| ==> hostname == seg + "." + hostname[|seg| + 1..] by {
      if |seg| < |hostname| {
        assert hostname[..|seg|] == seg;
        assert hostname == hostname[..|seg|] + [hostname[|seg|]] + hostname[|seg| + 1..];
      }
    }
    if parts[0] in InterfacePrefixes then Join(parts[1..]) else hostname
  }

  /**
   The name searched for: the canonical name from the reverse lookup, or the
   given name when the lookup failed (`socket.gaierror`), then stripped.
   */
  function SearchName(hostname: string, lookup: Option<string>): string
  {
    var canonical := match lookup
      case Some(name) => name
      case None => hostname;
    StripInterface(canonical)
  }

  /**
   What `ET.parse` makes of a per-host file: a parse failure, which the
   ElementTree this code targets raises as `expat.ExpatError`, or the METRIC
   children of the root.
   */
  datatype HostContent = Unparsable | Metrics(metrics: seq<Metric>)

  /** One entry of the hosts directory, in enumeration order. */
  datatype HostFile = HostFile(name: string, mtime: int, content: HostContent)

  /** The two globs tried: `*.<host>` and the bare `<host>`. */
  datatype Pattern = DotSuffix(host: string) | Literal(host: string)

  /**
   Whether a directory entry matches a glob. `*` matches any text but, as in
   `glob`, never a name that starts with '.'; a pattern without wildcards
   matches only the name itself.
   */
  predicate GlobMatches(name: string, p: Pattern) {
    match p
    case DotSuffix(host) => !StartsWith(name, ".") && EndsWith(name, "." + host)
    case Literal(host) => name == host
  }

  /** No entry matches the glob. */
  predicate NoMatch(files: seq<HostFile>, p: Pattern) {
    forall k :: 0 <= k < |files| ==> !GlobMatches(files[k].name, p)
  }

  /** The index of the first entry matching the glob, in enumeration order. */
  function FirstMatch(files: seq<HostFile>, p: Pattern): (r: Option<nat>)
    ensures r.None? <==> NoMatch(files, p)
    ensures r.Some? ==> && r.value < |files|
                        && GlobMatches(files[r.value].name, p)
                        && NoMatch(files[..r.value], p)
    decreases |files|
  {
    if |files| == 0 then None
    else if GlobMatches(files[0].name, p) then
      assert files[..0] == [];
      Some(0)
    else
      match FirstMatch(files[1..], p)
      case None => None
      case Some(i) =>
        assert files[..i + 1] == [files[0]] + files[1..][..i];
        Some(i + 1)
  }

  /**
   `filelist[0]` after the two globs: the first entry whose name ends in
   "." + host (dot-prefixed names excluded), or, when there is none, the first
   entry named host; None when neither glob matches.
   */
  function SelectFile(files: seq<HostFile>, host: string): (r: Option<nat>)
    ensures r.None? <==> NoMatch(files, DotSuffix(host)) && NoMatch(files, Literal(host))
    ensures r.Some? ==>
              var i := r.value;
              && i < |files|
              && ((GlobMatches(files[i].name, DotSuffix(host)) && NoMatch(files[..i], DotSuffix(host)))
                  || (&& NoMatch(files, DotSuffix(host))
                      && GlobMatches(files[i].name, Literal(host))
                      && NoMatch(files[..i], Literal(host))))
  {
    match FirstMatch(files, DotSuffix(host))
    case Some(i) => Some(i)
    case None => FirstMatch(files, Literal(host))
  }

  /** The VAL of the first METRIC named `name`; None when there is none. */
  function FirstMetric(ms: seq<Metric>, name: string): (r: Option<string>)
    ensures r.None? <==> forall k :: 0 <= k < |ms| ==> ms[k].name != name
    ensures r.Some? ==> exists k :: 0 <= k < |ms| && ms[k] == Metric(name, r.value)
                                    && forall j :: 0 <= j < k ==> ms[j].name != name
    decreases |ms|
  {
    if |ms| == 0 then None
    else if ms[0].name == name then Some(ms[0].val)
    else
      var r := FirstMetric(ms[1..], name);
      assert r.Some? ==> exists k :: 0 <= k < |ms| && ms[k] == Metric(name, r.value)
                                    && forall j :: 0 <= j < k ==> ms[j].name != name by {
        if r.Some? {
          var k :| 0 <= k < |ms[1..]| && ms[1..][k] == Metric(name, r.value)
                   && forall j :: 0 <= j < k ==> ms[1..][j].name != name;
          assert ms[k + 1] == Metric(name, r.value);
          assert forall j :: 0 <= j < k + 1 ==> ms[j].name != name by {
            forall j | 0 <= j < k + 1
              ensures ms[j].name != name
            {
              if j > 0 {
                assert ms[j] == ms[1..][j - 1];
              }
            }
          }
        }
      }
      r
  }

  /** How a resolution ends. */
  datatype Outcome =
    | Value(val: string)                 // the metric's VAL, verbatim
    | NoValue                            // the file has no such metric: the implicit None
    | HostNotFound(host: string)         // `Exception("Host not found: %s." % hostname)`
    | Exit(status: int, output: string)  // `done(status)`, with everything written to stdout

  /** `done(status)`: `print ''` ends the line already written, then the process exits. */
  function Done(status: int, written: string): (r: Outcome)
    ensures r.Exit? && r.status == status
    ensures EndsWith(r.output, "\n") && r.output[..|r.output| - 1] == written
  {
    Exit(status, written + "\n")
  }

  /** The entry the two globs select for `host`, if any. */
  function Selected(files: seq<HostFile>, host: string): Option<HostFile>
  {
    match SelectFile(files, host)
    case None => None
    case Some(i) => Some(files[i])
  }

  /**
   `get_metric_for_host(hostname, metricname)`. The host is not found exactly
   when no entry matches either glob; otherwise only the selected file matters:
   stale means exit 2 with "STALE", unparsable means exit 2 with "XML parse
   error", and a parsed file yields the VAL of its first METRIC of that NAME,
   or no value when it has none.
   */
  function GetMetricForHost(hostname: string, lookup: Option<string>, files: seq<HostFile>,
                            now: int, metricname: string): (r: Outcome)
    ensures var host := SearchName(hostname, lookup);
            r.HostNotFound? <==> NoMatch(files, DotSuffix(host)) && NoMatch(files, Literal(host))
    ensures r.HostNotFound? ==> r.host == SearchName(hostname, lookup)
    ensures r.Exit? ==> r == Exit(Critical, "STALE\n") || r == Exit(Critical, "XML parse error\n")
    ensures var f := Selected(files, SearchName(hostname, lookup));
            && (r == Exit(Critical, "STALE\n") <==> f.Some? && IsStale(now, f.value.mtime))
            && (r == Exit(Critical, "XML parse error\n") <==>
                  f.Some? && !IsStale(now, f.value.mtime) && f.value.content.Unparsable?)
            && (r.NoValue? <==>
                  && f.Some? && !IsStale(now, f.value.mtime) && f.value.content.Metrics?
                  && forall k :: 0 <= k < |f.value.content.metrics| ==> f.value.content.metrics[k].name != metricname)
            && (r.Value? <==>
                  && f.Some? && !IsStale(now, f.value.mtime) && f.value.content.Metrics?
                  && exists k :: 0 <= k < |f.value.content.metrics| && f.value.content.metrics[k].name == metricname)
            && (r.Value? ==>
                  && f.Some? && f.value.content.Metrics?
                  && exists k :: 0 <= k < |f.value.content.metrics|
                                 && f.value.content.metrics[k] == Metric(metricname, r.val)
                                 && forall j :: 0 <= j < k ==> f.value.content.metrics[j].name != metricname)
  {
    var host := SearchName(hostname, lookup);
    var sel := SelectFile(files, host);
    if sel.None? then HostNotFound(host)
    else
      var f := files[sel.value];
      assert Selected(files, host) == Some(f);
      if IsStale(now, f.mtime) then Done(Critical, "STALE")
      else if f.content.Unparsable? then Done(Critical, "XML parse error")
      else
        var found := FirstMetric(f.content.metrics, metricname);
        if found.Some? then Value(found.value) else NoValue
  }
}

=== FILE: host_resolve_props.dfy ===
/**
 Properties of `get_metric_for_host`: interface-label stripping, the choice of
 the per-host file, and worked examples.
 */
module ResolveProperties {
  import opened Ganglia
  import opened Text
  import opened HostResolve

  lemma FirstSegmentOfJoin(p: string, rest: string)
    requires '.' !in p
    ensures FirstSegment(p + "." + rest) == p
  {
    IndexOfDotFree(p, rest);
    assert (p + "." + rest)[..|p|] == p;
  }

  /** An interface label and its dot are removed, and nothing else: "int.int.x" becomes "int.x". */
  lemma StripOneLabel(p: string, rest: string)
    requires p in InterfacePrefixes
    ensures StripInterface(p + "." + rest) == rest
  {
    assert '.' !in p;
    FirstSegmentOfJoin(p, rest);
    var h := p + "." + rest;
    var r := StripInterface(h);
    assert h == p + "." + r;
    assert h[|p| + 1..] == rest && h[|p| + 1..] == r;
  }

  /** A name that is only an interface label strips to the empty name. */
  lemma StripBareLabel(p: string)
    requires p in InterfacePrefixes
    ensures StripInterface(p) == ""
  {
    assert '.' !in p;
    assert IndexOf(p, '.') == |p|;
    assert FirstSegment(p) == p[..|p|] == p;
  }

  /** A name whose first label is not an interface label is searched as given. */
  lemma KeepOtherLabel(p: string, rest: string)
    requires '.' !in p && p !in InterfacePrefixes
    ensures StripInterface(p + "." + rest) == p + "." + rest
  {
    FirstSegmentOfJoin(p, rest);
  }

  /** Even when the reverse lookup fails, "eth0.foo.bar.com" is searched as "foo.bar.com". */
  lemma FailedLookupStillStrips(rest: string)
    ensures SearchName("eth0." + rest, None) == rest
  {
    StripOneLabel("eth0", rest);
    assert "eth0" + "." + rest == "eth0." + rest;
  }

  /** A successful reverse lookup is stripped, not the name asked for. */
  lemma LookupNameIsStripped(hostname: string, rest: string)
    ensures SearchName(hostname, Some("eth1." + rest)) == rest
  {
    StripOneLabel("eth1", rest);
    assert "eth1" + "." + rest == "eth1." + rest;
  }

  /** Every interface label is non-empty and starts with 'i', 'e' or 't'. */
  lemma InterfaceInitials()
    ensures forall p :: p in InterfacePrefixes ==> |p| > 0 && (p[0] == 'i' || p[0] == 'e' || p[0] == 't')
  {
  }

  /**
   A name starting with any other character keeps its first label. The worked
   examples below use this rather than `KeepOtherLabel`: it needs only the
   name's first character, where `KeepOtherLabel` would need the whole literal
   name rebuilt as label + "." + rest.
   */
  lemma OtherInitialKept(hostname: string)
    requires |hostname| > 0 && hostname[0] != 'i' && hostname[0] != 'e' && hostname[0] != 't'
    ensures StripInterface(hostname) == hostname
  {
    InterfaceInitials();
    var seg := FirstSegment(hostname);
    if |seg| > 0 {
      assert seg[0] == hostname[0];
    }
  }

  /** Resolution reads nothing but the selected entry: the other entries could be removed. */
  lemma OnlySelectedFileMatters(hostname: string, lookup: Option<string>, files: seq<HostFile>, now: int, metricname: string)
    requires SelectFile(files, SearchName(hostname, lookup)).Some?
    ensures var i := SelectFile(files, SearchName(hostname, lookup)).value;
            GetMetricForHost(hostname, lookup, files, now, metricname)
            == GetMetricForHost(hostname, lookup, [files[i]], now, metricname)
  {
    var host := SearchName(hostname, lookup);
    var i := SelectFile(files, host).value;
    var one := [files[i]];
    assert one[..0] == [];
    if GlobMatches(files[i].name, DotSuffix(host)) {
      assert FirstMatch(one, DotSuffix(host)) == Some(0);
    } else {
      assert NoMatch(one, DotSuffix(host));
      assert FirstMatch(one, Literal(host)) == Some(0);
    }
    assert SelectFile(one, host) == Some(0);
  }

  /** A later `*.host` entry wins over an earlier entry named exactly `host`. */
  lemma SuffixBeatsExactName(host: string, m0: int, c0: HostContent, m1: int, c1: HostContent)
    ensures SelectFile([HostFile(host, m0, c0), HostFile("int." + host, m1, c1)], host) == Some(1)
  {
    var files := [HostFile(host, m0, c0), HostFile("int." + host, m1, c1)];
    assert !EndsWith(host, "." + host);
    assert ("int." + host)[..1] == "i";
    assert ("int." + host)[|"int." + host| - |"." + host|..] == "." + host;
    assert GlobMatches(files[1].name, DotSuffix(host));
    assert files[..1] == [files[0]];
    assert FirstMatch(files, DotSuffix(host)) == Some(1);
  }

  /** With several `*.host` entries the first in enumeration order is used. */
  lemma FirstOfSeveralSuffixMatches(host: string, a: HostFile, b: HostFile)
    requires GlobMatches(a.name, DotSuffix(host)) && GlobMatches(b.name, DotSuffix(host))
    ensures SelectFile([a, b], host) == Some(0)
  {
  }

  /** `*` never matches a dot-prefixed name, so ".host" alone is not found. */
  lemma HiddenEntryNotFound(host: string, mtime: int, content: HostContent)
    ensures SelectFile([HostFile("." + host, mtime, content)], host).None?
  {
    assert StartsWith("." + host, ".");
    assert |"." + host| != |host|;
  }

  /** The bare label "int" strips to "", whose glob `*.` matches any name ending in '.'. */
  lemma BareLabelMatchesTrailingDot(name: string, mtime: int, content: HostContent)
    requires |name| > 0 && name[0] != '.' && name[|name| - 1] == '.'
    ensures SearchName("int", None) == ""
    ensures SelectFile([HostFile(name, mtime, content)], "") == Some(0)
  {
    StripBareLabel("int");
    assert "." + "" == ".";
    assert name[..1] != ".";
    assert name[|name| - 1..] == ".";
  }

  /** Exactly 300 seconds old is fresh; 301 seconds old ends the check with STALE. */
  lemma ResolveStaleBoundary(host: string, now: int, ms: seq<Metric>, metricname: string)
    requires '.' !in host && host !in InterfacePrefixes
    ensures GetMetricForHost(host, None, [HostFile(host, now - 300, Metrics(ms))], now, metricname)
            == match FirstMetric(ms, metricname)
               case Some(v) => Value(v)
               case None => NoValue
    ensures GetMetricForHost(host, None, [HostFile(host, now - 301, Metrics(ms))], now, metricname)
            == Exit(Critical, "STALE\n")
  {
    assert IndexOf(host, '.') == |host|;
    assert FirstSegment(host) == host[..|host|] == host;
    assert SearchName(host, None) == host;
    assert !EndsWith(host, "." + host);
    var f1 := [HostFile(host, now - 300, Metrics(ms))];
    var f2 := [HostFile(host, now - 301, Metrics(ms))];
    assert f1[..0] == [] && f2[..0] == [];
    assert SelectFile(f1, host) == Some(0);
    assert SelectFile(f2, host) == Some(0);
  }

  /** When a file repeats a METRIC, the first VAL is returned. */
  lemma FirstMetricWins(name: string, v1: string, v2: string)
    ensures FirstMetric([Metric(name, v1), Metric(name, v2)], name) == Some(v1)
  {
  }

  /** Worked example: a fresh per-host file "web1.example.com" with METRIC load=1.5. */
  lemma ResolveExample(now: int)
    ensures GetMetricForHost("web1.example.com", None,
                             [HostFile("web1.example.com", now, Metrics([Metric("load", "1.5")]))],
                             now, "load") == Value("1.5")
  {
    ExampleName();
    SingleExactEntry("web1.example.com", now, Metrics([Metric("load", "1.5")]));
  }

  /** A lone entry named exactly like the searched name is selected. */
  lemma SingleExactEntry(host: string, mtime: int, content: HostContent)
    ensures SelectFile([HostFile(host, mtime, content)], host) == Some(0)
  {
    assert |host| < |"." + host|;
    assert [HostFile(host, mtime, content)][..0] == [];
  }

  lemma ExampleName()
    ensures SearchName("web1.example.com", None) == "web1.example.com"
  {
    OtherInitialKept("web1.example.com");
  }

  /** Worked example: a name no entry matches is reported as not found. */
  lemma NotFoundExample(now: int)
    ensures GetMetricForHost("nonexistent.example.com", None,
                             [HostFile("web1.example.com", now, Metrics([Metric("load", "1.5")]))],
                             now, "load") == HostNotFound("nonexistent.example.com")
  {
    MissingName();
    NoEntryFor("web1.example.com", "nonexistent.example.com", now, Metrics([Metric("load", "1.5")]));
  }

  lemma MissingName()
    ensures SearchName("nonexistent.example.com", None) == "nonexistent.example.com"
  {
    OtherInitialKept("nonexistent.example.com");
  }

  /** A single entry shorter than the searched name matches neither glob. */
  lemma NoEntryFor(name: string, host: string, mtime: int, content: HostContent)
    requires |name| < |host|
    ensures SelectFile([HostFile(name, mtime, content)], host).None?
  {
    assert |name| < |"." + host|;
  }
}

=== FILE: text.dfy ===
/**
 String operations the monitoring helper borrows from Python's `str`:
 `endswith`, `replace(pat, '')`, `split('.')` and `'.'.join(...)`.
 Strings are plain `seq<char>`.
 */
module Text {

  predicate StartsWith(s: string, prefix: string) {
    |prefix| <= |s| && s[..|prefix|] == prefix
  }

  predicate EndsWith(s: string, suffix: string) {
    |suffix| <= |s| && s[|s| - |suffix|..] == suffix
  }

  /** `pat` occurs in `s` starting at index `i`. */
  predicate OccursAt(s: string, pat: string, i: int) {
    0 <= i && i + |pat| <= |s| && s[i..i + |pat|] == pat
  }

  predicate Contains(s: string, pat: string) {
    exists i :: 0 <= i <= |s| && OccursAt(s, pat, i)
  }

  lemma OccursInTail(s: string, pat: string, i: int)
    requires |s| > 0 && OccursAt(s[1..], pat, i)
    ensures OccursAt(s, pat, i + 1)
  {
    assert s[1..][i..i + |pat|] == s[i + 1..i + 1 + |pat|];
  }

  /**
   `s.replace(pat, '')`: every non-overlapping occurrence of `pat` found in a
   single left-to-right pass is deleted; occurrences that only appear after a
   deletion are kept.
   */
  function RemoveAll(s: string, pat: string): (r: string)
    requires |pat| > 0
    ensures |r| <= |s|
    ensures !Contains(s, pat) ==> r == s
    decreases |s|
  {
    if |s| < |pat| then s
    else if s[..|pat|] == pat then
      assert OccursAt(s, pat, 0);
      RemoveAll(s[|pat|..], pat)
    else
      var rest := RemoveAll(s[1..], pat);
      assert !Contains(s, pat) ==> !Contains(s[1..], pat) by {
        if Contains(s[1..], pat) {
          var i :| OccursAt(s[1..], pat, i);
          OccursInTail(s, pat, i);
        }
      }
      [s[0]] + rest
  }

  /** Index of the first `c` in `s`, or `|s|` when there is none. */
  function IndexOf(s: string, c: char): (r: nat)
    ensures r <= |s|
    ensures forall k :: 0 <= k < r ==> s[k] != c
    ensures r < |s| ==> s[r] == c
    decreases |s|
  {
    if |s| == 0 then 0
    else if s[0] == c then 0
    else 1 + IndexOf(s[1..], c)
  }

  /** `s.split('.')`: never empty; "" splits into [""]. */
  function Split(s: string): (parts: seq<string>)
    ensures |parts| >= 1
    ensures forall k :: 0 <= k < |parts| ==> '.' !in parts[k]
    decreases |s|
  {
    var i := IndexOf(s, '.');
    if i == |s| then [s] else [s[..i]] + Split(s[i + 1..])
  }

  /** `'.'.join(parts)`: the empty list joins to "". */
  function Join(parts: seq<string>): string
  {
    if |parts| == 0 then ""
    else if |parts| == 1 then parts[0]
    else parts[0] + "." + Join(parts[1..])
  }

  /** The text before the first '.', or all of `s` when it has no '.'. */
  function FirstSegment(s: string): (seg: string)
    ensures '.' !in seg
    ensures StartsWith(s, seg)
    ensures |seg| < |s| ==> s[|seg|] == '.'
  {
    s[..IndexOf(s, '.')]
  }

  /** Joining the pieces of a split gives the original text back. */
  lemma {:induction false} JoinSplit(s: string)
    ensures Join(Split(s)) == s
    decreases |s|
  {
    var i := IndexOf(s, '.');
    if i < |s| {
      var head := s[..i];
      var tail := s[i + 1..];
      var rest := Split(tail);
      JoinSplit(tail);
      var parts := Split(s);
      assert parts == [head] + rest;
      JoinCons(head, rest);
      CutAt(s, i);
    }
  }

  lemma JoinCons(head: string, rest: seq<string>)
    requires |rest| >= 1
    ensures Join([head] + rest) == head + "." + Join(rest)
  {
    assert ([head] + rest)[1..] == rest;
  }

  /** Cutting `s` around its '.' at index `i`. */
  lemma CutAt(s: string, i: nat)
    requires i < |s| && s[i] == '.'
    ensures s == s[..i] + "." + s[i + 1..]
  {
    assert s == s[..i] + [s[i]] + s[i + 1..];
  }

  /** Splitting a join of dot-free pieces gives the pieces back. */
  lemma {:induction false} SplitJoin(parts: seq<string>)
    requires |parts| >= 1
    requires forall k :: 0 <= k < |parts| ==> '.' !in parts[k]
    ensures Split(Join(parts)) == parts
    decreases |parts|
  {
    if |parts| > 1 {
      var p := parts[0];
      var tail := Join(parts[1..]);
      var s := p + "." + tail;
      assert Join(parts) == s;
      IndexOfDotFree(p, tail);
      assert s[..|p|] == p;
      assert s[|p| + 1..] == tail;
      SplitJoin(parts[1..]);
      assert parts == [p] + parts[1..];
    }
  }

  lemma IndexOfDotFree(p: string, tail: string)
    requires '.' !in p
    ensures IndexOf(p + "." + tail, '.') == |p|
  {
    var s := p + "." + tail;
    assert s[|p|] == '.';
    assert forall k :: 0 <= k < |p| ==> s[k] == p[k];
  }

  /** The first piece of a split is the first segment, and the remaining pieces join to the text after its dot. */
  lemma SplitHead(s: string)
    ensures Split(s)[0] == FirstSegment(s)
    ensures |FirstSegment(s)| < |s| ==> Join(Split(s)[1..]) == s[|FirstSegment(s)| + 1..]
    ensures |FirstSegment(s)| == |s| ==> Split(s) == [s]
  {
    var i := IndexOf(s, '.');
    if i < |s| {
      JoinSplit(s[i + 1..]);
      assert Split(s)[1..] == Split(s[i + 1..]);
    }
  }

  /**
   In `x + ".xml" + y` with no ".xml" inside `x`, the first deletion removes
   exactly the ".xml" after `x`: it never merges with the text before it
   (".xml" cannot overlap itself, since '.' occurs in it only first).
   */
  lemma {:induction false} RemoveFirstXml(x: string, y: string)
    requires !Contains(x, ".xml")
    ensures RemoveAll(x + ".xml" + y, ".xml") == x + RemoveAll(y, ".xml")
    decreases |x|
  {
    var s := x + ".xml" + y;
    if |x| == 0 {
      assert s[..4] == ".xml" && s[4..] == y;
      RemoveAllHit(s, ".xml");
    } else {
      NoXmlAcrossJoin(x);
      assert s[..4] == (x + ".xml")[..4];
      RemoveAllMiss(s, ".xml");
      var tail := x[1..];
      NoXmlInTail(x);
      assert s[1..] == tail + ".xml" + y;
      RemoveFirstXml(tail, y);
      assert [s[0]] + (tail + RemoveAll(y, ".xml")) == ([x[0]] + tail) + RemoveAll(y, ".xml");
      assert x == [x[0]] + tail;
    }
  }

  lemma RemoveAllHit(s: string, pat: string)
    requires 0 < |pat| <= |s| && s[..|pat|] == pat
    ensures RemoveAll(s, pat) == RemoveAll(s[|pat|..], pat)
  {
  }

  lemma RemoveAllMiss(s: string, pat: string)
    requires 0 < |pat| <= |s| && s[..|pat|] != pat
    ensures RemoveAll(s, pat) == [s[0]] + RemoveAll(s[1..], pat)
  {
  }

  lemma NoXmlInTail(x: string)
    requires |x| > 0 && !Contains(x, ".xml")
    ensures !Contains(x[1..], ".xml")
  {
    if Contains(x[1..], ".xml") {
      var i :| OccursAt(x[1..], ".xml", i);
      OccursInTail(x, ".xml", i);
    }
  }

  /** Text shorter than ".xml" cannot hold it. */
  lemma ShortNoXml(x: string)
    requires |x| < 4
    ensures !Contains(x, ".xml")
  {
  }

  lemma XmlAtStart(x: string)
    requires |x| >= 4 && x[..4] == ".xml"
    ensures Contains(x, ".xml")
  {
    assert OccursAt(x, ".xml", 0);
  }

  /** No ".xml" starts inside `x` and runs into the appended extension. */
  lemma NoXmlAcrossJoin(x: string)
    requires |x| > 0 && !Contains(x, ".xml")
    ensures (x + ".xml")[..4] != ".xml"
  {
    var s := x + ".xml";
    if |x| >= 4 {
      assert s[..4] == x[..4];
      if x[..4] == ".xml" {
        XmlAtStart(x);
      }
    } else {
      assert s[|x|] == '.';
      assert ".xml"[|x|] != '.';
    }
  }

  /** Text without a '.' holds no ".xml". */
  lemma NoDotNoXml(x: string)
    requires '.' !in x
    ensures !Contains(x, ".xml")
  {
    forall i | 0 <= i <= |x|
      ensures !OccursAt(x, ".xml", i)
    {
      if i + 4 <= |x| {
        assert x[i..i + 4][0] == x[i];
      }
    }
  }
}
